=== FILE: README.md ===
# task-queue, modelled in Dafny

A model of the core of the task-queue system. Producers submit named commands to a named queue through an HTTP API. Workers poll that queue, run each command with a registered handler, and report back: an acknowledgement, or a rejection that usually requeues the task. The API keeps its state in Redis lists. Each queue has a pending list, and each pair of queue and worker has an in-flight ("processing") list. Which list a task sits in is its state.

The model has these modules:

- `Coordinator` (`coordinator.dfy`): the queue service (`RedisTaskQueueService`). Its operations are pure transitions over a store of lists, keyed by `Slot` (the pending list of a queue, or the processing list of a queue and worker). RPUSH, LMOVE, LREM (count 0, so every equal value goes) and LPUSH are sequence operations. A value that is null or empty, or whose JSON deserialises to null, is the entry `Unreadable`; the service skips such values.
- `Invariants` (`invariants.dfy`): the lifecycle invariant. Every task Id occupies at most one position in the whole store, and every stored record still has status Pending. Every operation keeps the invariant. Idempotent acknowledgement, requeue-to-head and discard follow from it.
- `Traces` (`traces.dfy`): FIFO delivery over any run of enqueues and dequeues.
- `TaskModel` (`task_command.dfy`): the `TaskCommand` record and the stored entry.
- `Lists` (`lists.dfy`): LREM as remove-all.
- `Polling` (`polling.dfy`): the worker's poll cycle (`PollAndProcessAsync`), as a decision over what each remote call returned or threw. Also the background loop (`ExecuteAsync`) over a finite schedule of cancellation observations.
- `Delivery` (`delivery.dfy`): the cycle composed with the coordinator, giving at-least-once delivery.
- `Dispatch` (`dispatcher.dfy`): the command dispatcher. It covers building the case-insensitive table and the lookup.
- `Endpoints` (`endpoints.dfy`): the seven HTTP routes as one validation-and-status function over the store.
- `TokenAuth` (`token_auth.dfy`): the bearer-token middleware decision.
- `RedisKeys` (`redis_keys.dfy`): the Redis key strings as the service builds them, and the key-collision finding below.
- `Common` (`common.dfy`): optional values and call outcomes, plus ASCII stand-ins for the .NET string helpers (ordinal-ignore-case folding, `StartsWith`, `Trim`, `FirstOrDefault`).

Points of the code that shape the model:

- The worker waits the polling interval after every cycle, whether or not it processed a task (`Polling.Execute`).
- The dispatcher does not catch handler exceptions. They propagate, and the poll cycle's catch block turns them into a requeue (`Dispatch.DispatchTask`, `Polling.PollAndProcess`).
- Acknowledge and Reject remove every value equal to the matched one (LREM with count 0). Under the invariant this is exactly the matched entry (`Invariants.RemoveMatchedIsRemoveOne`).
- The keys are `task-queue:{q}:commands` and `task-queue:{q}:processing:{w}`. The store is keyed by `Slot` instead; for queue and worker names without ':' or '\\' the two agree (`RedisKeys.RawEnqueueMirrors`, `RedisKeys.RawDequeueMirrors`).

The service's inputs from the outside world are parameters:

- the GUID and the clock reading of a new task are the `id` and `now` arguments of `Enqueue`;
- each handler's result is a function from handler index to `Outcome`;
- each HTTP call of the listener is an `Outcome` or a `PollResult`;
- the cancellation token is a boolean per loop head and per delay.

## Model

| member | source | states |
|---|---|---|
| TaskModel.NewTask | src/TaskQueue.Api/Models/TaskCommand.cs:5-9 | a new task carries the given Id, command, parameters and creation time, and its status is Pending |
| Lists.RemoveAll | src/TaskQueue.Api/Services/RedisTaskQueueService.cs:70 | LREM with count 0: no copy of the value is left, every other value keeps its multiplicity, and the list never grows |
| Lists.RemoveAllAppend | src/TaskQueue.Api/Services/RedisTaskQueueService.cs:70 | LREM removes from each part of a concatenation separately; with the one-element case (`Lists.RemoveAllOne`) this fixes the result, in the original order of what remains |
| Lists.RemoveAllSingle | src/TaskQueue.Api/Services/RedisTaskQueueService.cs:95 | when the matched value occurs once, removing all copies removes exactly that position |
| Coordinator.FindById | src/TaskQueue.Api/Services/RedisTaskQueueService.cs:63-68 | the scan finds the first readable entry with the Id, and finds nothing exactly when no entry has it |
| Coordinator.Enqueue | src/TaskQueue.Api/Services/RedisTaskQueueService.cs:21-34 | the new Pending task, created at the given clock reading, is appended at the tail of that queue's pending list, and every other list is unchanged |
| Coordinator.Dequeue | src/TaskQueue.Api/Services/RedisTaskQueueService.cs:37-53 | an empty queue returns nothing and changes nothing; otherwise the head moves to the tail of the worker's processing list, is returned when readable, and the combined multiset of the two lists is preserved |
| Coordinator.Acknowledge | src/TaskQueue.Api/Services/RedisTaskQueueService.cs:56-78 | true exactly when the worker's processing list holds a task with the Id; on false nothing changes; on true the matched value is removed and only that list changes |
| Coordinator.Reject | src/TaskQueue.Api/Services/RedisTaskQueueService.cs:80-114 | same lookup and removal as Acknowledge; with requeue the identical value is pushed on the head of pending, without it pending is unchanged; not found changes nothing |
| Coordinator.Readable | src/TaskQueue.Api/Services/RedisTaskQueueService.cs:122-126 | the read pipeline keeps exactly the readable tasks, and when all are readable it keeps every one in list order |
| Coordinator.GetProcessingTasks | src/TaskQueue.Api/Services/RedisTaskQueueService.cs:116-127 | the worker's in-flight tasks, membership exactly the readable entries, in list order when all are readable |
| Coordinator.PeekAll | src/TaskQueue.Api/Services/RedisTaskQueueService.cs:129-139 | the pending tasks from head to tail, membership exactly the readable entries |
| Coordinator.GetQueueLength | src/TaskQueue.Api/Services/RedisTaskQueueService.cs:141-145 | LLEN: the number of values in the pending list, readable or not; it bounds the length of what PeekAll shows and equals it when every value is readable |
| Invariants.EmptyStoreInv | src/TaskQueue.Api/Services/RedisTaskQueueService.cs:62-77 | the empty keyspace satisfies the lifecycle invariant |
| Invariants.RemoveMatchedIsRemoveOne | src/TaskQueue.Api/Services/RedisTaskQueueService.cs:70 | under unique Ids, LREM of a matched entry removes exactly that entry |
| Invariants.EnqueueKeepsInv | src/TaskQueue.Api/Services/RedisTaskQueueService.cs:21-34 | enqueueing with a fresh Id keeps every Id at one position and every record Pending |
| Invariants.DequeueKeepsInv | src/TaskQueue.Api/Services/RedisTaskQueueService.cs:37-53 | claiming keeps the invariant: the moved task still has one position |
| Invariants.HeadMovedKeepsInv | src/TaskQueue.Api/Services/RedisTaskQueueService.cs:40-44 | moving the head of one list to the tail of another (LMOVE LEFT RIGHT) keeps every Id at one position and every value a pending record |
| Invariants.ResolveKeepsInv | src/TaskQueue.Api/Services/RedisTaskQueueService.cs:95-101 | removing the matched entry and optionally pushing it on pending keeps the invariant |
| Invariants.AcknowledgeKeepsInv | src/TaskQueue.Api/Services/RedisTaskQueueService.cs:56-78 | acknowledgement keeps the invariant, removes exactly the matched position, leaves pending alone and leaves the Id nowhere in the store |
| Invariants.RejectKeepsInv | src/TaskQueue.Api/Services/RedisTaskQueueService.cs:80-114 | rejection keeps the invariant and removes exactly the matched position |
| Invariants.AbsentAfterResolve | src/TaskQueue.Api/Services/RedisTaskQueueService.cs:95-106 | after resolution the Id survives only as the requeued head of pending, if anywhere |
| Invariants.AcknowledgeOnce | src/TaskQueue.Api/Services/RedisTaskQueueService.cs:62-77 | a second acknowledgement or rejection of an acknowledged task by the same worker is not found |
| Invariants.RejectOnce | src/TaskQueue.Api/Services/RedisTaskQueueService.cs:87-113 | after a rejection the same worker cannot resolve the task again; a discarded task is in no list, a requeued one only at the head of pending |
| Invariants.RequeuedIsNext | src/TaskQueue.Api/Services/RedisTaskQueueService.cs:95-101 | after a requeueing rejection the next claim, by any worker, returns that task |
| Traces.PerformBalance | src/TaskQueue.Api/Services/RedisTaskQueueService.cs:21-53 | one enqueue or claim: what it delivers followed by what remains pending equals what was pending followed by what it submitted |
| Traces.FifoBalance | src/TaskQueue.Api/Services/RedisTaskQueueService.cs:21-53 | over any run of enqueues and claims, no task is lost or reordered |
| Traces.FifoDelivery | src/TaskQueue.Api/Services/RedisTaskQueueService.cs:31-44 | the tasks delivered are a prefix of the previously pending tasks followed by the submitted ones, in order |
| Polling.PollAndProcess | src/TaskQueue.Listener/Services/TaskPollingService.cs:47-79 | no task: no calls; poll failure: it escapes; the calls issued are pinned for every outcome: success is dispatch then acknowledge, plus a requeueing reject if the acknowledge throws; failure is dispatch then a requeueing reject, plus a second one if that throws; a throwing dispatch is followed by one requeueing reject and never an acknowledge; no reject ever discards; an exception escapes only from the compensating reject |
| Polling.Cycles | src/TaskQueue.Listener/Services/TaskPollingService.cs:30-41 | the loop runs a cycle for every tick up to the first cancellation: no tick before the count was cancelled at its head or (except the last) during its delay, and the tick just past the count was cancelled at its head or follows a cancelled delay |
| Polling.Execute | src/TaskQueue.Listener/Services/TaskPollingService.cs:24-45 | each iteration runs one cycle and then one wait, only while not cancelled at the loop head; the loop ends at head cancellation, at cancellation during the wait, or when the schedule ends, and a cancelled wait always ends it as such (the delay throws before the head check is reached again) |
| Polling.FaultsDoNotStopLoop | src/TaskQueue.Listener/Services/TaskPollingService.cs:30-39 | failures inside cycles never change how many cycles run or why the loop ends |
| Delivery.ApplyCall | src/TaskQueue.Listener/Services/TaskQueueApiClient.cs:41-60 | a call the cycle issues reaches the service as the same worker on the same queue: running the handler touches no list, and an ack or reject touches only that worker's list and, when requeueing, the queue's pending list |
| Delivery.ApplyCallKeepsInv | src/TaskQueue.Listener/Services/TaskQueueApiClient.cs:41-60 | no ack or reject the listener sends breaks the lifecycle invariant |
| Delivery.ClaimedIsLast | src/TaskQueue.Api/Services/RedisTaskQueueService.cs:37-53 | a claimed task is at the tail of the worker's list and a lookup by its Id finds exactly that position |
| Delivery.AcknowledgeClaimed | src/TaskQueue.Listener/Services/TaskPollingService.cs:63-65 | acknowledging the task just claimed is answered with success, leaves its Id nowhere in the store and the pending list without its old head |
| Delivery.RequeueClaimed | src/TaskQueue.Listener/Services/TaskPollingService.cs:68-77 | rejecting the task just claimed with requeue is answered with success and restores every list to what it was before the claim |
| Delivery.AtLeastOnce | src/TaskQueue.Listener/Services/TaskPollingService.cs:59-78 | when every ack or reject the cycle sends is answered with success, a successful task is gone from every list, and a failed or throwing one leaves every list exactly as before the claim, with the task next in line; the service's own answer is then indeed success |
| Dispatch.Build | src/TaskQueue.Listener/Handlers/CommandDispatcher.cs:12 | the table builds exactly when no two handler names are equal ignoring case; it then maps each folded name to its handler, and otherwise reports the first repeated name |
| Dispatch.DispatchTask | src/TaskQueue.Listener/Handlers/CommandDispatcher.cs:16-26 | an unknown command invokes nothing and returns false; a known one invokes the handler whose name matches ignoring case and passes its result or exception through |
| Dispatch.CaseInsensitiveDispatch | src/TaskQueue.Listener/Handlers/CommandDispatcher.cs:18 | commands differing only in case are dispatched identically |
| Dispatch.UpperCaseReachesRunScript | src/TaskQueue.Listener/Handlers/CommandDispatcher.cs:12-18 | with the listener's two handlers, "RUN-SCRIPT" reaches the handler named "run-script" |
| Dispatch.CaseClashRejected | src/TaskQueue.Listener/Handlers/CommandDispatcher.cs:12 | two handlers whose names differ only in case make construction fail at the second |
| Endpoints.RequeueOrDefault | src/TaskQueue.Api/Endpoints/TaskEndpoints.cs:64 | an absent requeue value means true |
| Endpoints.CreatedAt | src/TaskQueue.Api/Endpoints/TaskEndpoints.cs:21 | the location is a slash, the Id, the query marker and the queue name |
| Endpoints.Handle | src/TaskQueue.Api/Endpoints/TaskEndpoints.cs:13-125 | a missing queue is a 400 on every route, before the worker check; the worker routes then need a worker header; only enqueue answers 201; 400 and 404 change nothing; reads never write; with a queue, peek answers 200 with `PeekAll`, count answers 200 with `GetQueueLength`, and with a worker too, the in-flight read answers 200 with `GetProcessingTasks` of the first worker; and every route that reaches the service leaves the store exactly as the coordinator call does: enqueue as `Enqueue`, poll as `Dequeue`, ack as `Acknowledge`, and reject as `Reject` with the bound requeue value (true when absent) |
| Endpoints.QueueCheckedFirst | src/TaskQueue.Api/Endpoints/TaskEndpoints.cs:28-37 | a request missing both the queue and the worker is told about the queue |
| Endpoints.WorkerHeaderIgnored | src/TaskQueue.Api/Endpoints/TaskEndpoints.cs:13-125 | enqueue (lines 13-22), peek and count (lines 102-125) answer the same whatever the worker header says |
| Endpoints.RejectRequeuesByDefault | src/TaskQueue.Api/Endpoints/TaskEndpoints.cs:64 | a reject without requeue behaves as one with requeue true |
| Endpoints.FirstWorkerHeaderCounts | src/TaskQueue.Api/Endpoints/TaskEndpoints.cs:33 | only the first X-Worker-Id value names the worker |
| Endpoints.PollStatus | src/TaskQueue.Api/Endpoints/TaskEndpoints.cs:39-40 | a poll answers 204 when there is no task and 200 with the head task otherwise |
| Endpoints.ResolveStatus | src/TaskQueue.Api/Endpoints/TaskEndpoints.cs:58-59 | ack and reject answer 200 exactly when the worker holds a task with the Id, 404 otherwise |
| Endpoints.PollAnswers | src/TaskQueue.Api/Endpoints/TaskEndpoints.cs:39-40 | in a store that keeps the invariant, a poll answers 204 exactly on an empty queue, and on 200 the task joins the worker's in-flight tasks |
| Endpoints.CountMatchesPeek | src/TaskQueue.Api/Endpoints/TaskEndpoints.cs:102-125 | in a store that keeps the invariant, the count equals the length of the peeked list |
| Endpoints.SecondAckNotFound | src/TaskQueue.Api/Endpoints/TaskEndpoints.cs:58-59 | a repeated acknowledgement answers 404 |
| Endpoints.EnqueueThenPeek | src/TaskQueue.Api/Endpoints/TaskEndpoints.cs:13-22 | after a 201 the peek shows the old pending tasks followed by the new one |
| TokenAuth.StartsWithSegment | src/TaskQueue.Api/Middleware/TokenAuthMiddleware.cs:24 | `StartsWithSegments`: true exactly when the path equals the segment ignoring case, or starts with it ignoring case and continues with '/' |
| TokenAuth.BearerToken | src/TaskQueue.Api/Middleware/TokenAuthMiddleware.cs:47 | the token is the header after the seven-character "Bearer " prefix with only white space dropped on either side, and has no white space at either end |
| TokenAuth.Authenticate | src/TaskQueue.Api/Middleware/TokenAuthMiddleware.cs:14-57 | no configured token or an OpenAPI path passes; otherwise a missing header, a non-Bearer header and a wrong token get their own 401 message, in that order, and with a token configured, a request passes exactly when its first header starts with the Bearer prefix and the trimmed token equals the configured one |
| TokenAuth.NoTokenAllowsAll | src/TaskQueue.Api/Middleware/TokenAuthMiddleware.cs:16-21 | with a null or empty configured token every request passes |
| TokenAuth.OpenApiBypass | src/TaskQueue.Api/Middleware/TokenAuthMiddleware.cs:24-28 | the OpenAPI path and everything below it pass, in any letter case |
| TokenAuth.PaddedHeaderAccepted | src/TaskQueue.Api/Middleware/TokenAuthMiddleware.cs:40-54 | a header with any casing of the scheme and white space around the token passes exactly when the token equals the configured one |
| TokenAuth.PaddedConfigurationLocksOut | src/TaskQueue.Api/Middleware/TokenAuthMiddleware.cs:47-54 | a configured token with white space at either end refuses every checked request |
| TokenAuth.ClientAuthorization | src/TaskQueue.Listener/Program.cs:18-21 | the listener sends an Authorization header exactly when its token is non-empty |
| TokenAuth.ListenerCredentials | src/TaskQueue.Api/Middleware/TokenAuthMiddleware.cs:30-56 | the listener's own header passes exactly when the shared token has no white space at either end; without a client token it gets the missing-header 401 |
| Common.FirstOrDefault | src/TaskQueue.Api/Endpoints/TaskEndpoints.cs:33 | the first header value, or null when there is none |
| Common.Trim | src/TaskQueue.Api/Middleware/TokenAuthMiddleware.cs:47 | the result has no white space at either end and is a contiguous part of the input |
| Common.TrimPadded | src/TaskQueue.Api/Middleware/TokenAuthMiddleware.cs:47 | trimming white space around a trimmed non-empty text gives that text back |
| RedisKeys.QueueKey | src/TaskQueue.Api/Services/RedisTaskQueueService.cs:18 | GetQueueKey: the key is "task-queue:", then the queue name unchanged, then ":commands" |
| RedisKeys.ProcessingKey | src/TaskQueue.Api/Services/RedisTaskQueueService.cs:19 | GetProcessingKey: the key is "task-queue:", then the queue name unchanged, then ":processing:", then the worker name unchanged |
| RedisKeys.RawEnqueue | src/TaskQueue.Api/Services/RedisTaskQueueService.cs:31 | as written: RPUSH onto the key string built from the queue name, no other key changes |
| RedisKeys.RawDequeue | src/TaskQueue.Api/Services/RedisTaskQueueService.cs:44 | as written: LMOVE between the two key strings built from the names |
| RedisKeys.QueueKeyIsProcessingKey | src/TaskQueue.Api/Services/RedisTaskQueueService.cs:18-19 | the pending key of queue "a:processing:b" is the processing key of worker "b:commands" on queue "a" |
| RedisKeys.SplicedQueueCollides | src/TaskQueue.Api/Services/RedisTaskQueueService.cs:18-19 | for any names q and w, queue q + ":processing:" + w has the same key as worker w + ":commands" on queue q |
| RedisKeys.SplicedWorkerCollides | src/TaskQueue.Api/Services/RedisTaskQueueService.cs:19 | for any names, worker b + ":processing:" + c on queue q has the same key as worker c on queue q + ":processing:" + b |
| RedisKeys.ProcessingKeysCollide | src/TaskQueue.Api/Services/RedisTaskQueueService.cs:19 | two workers on two queues share one processing key |
| RedisKeys.EnqueueLandsInFlight | src/TaskQueue.Api/Services/RedisTaskQueueService.cs:18-31 | a task submitted to one queue appears in flight for a worker of another |
| RedisKeys.PollStealsInFlight | src/TaskQueue.Api/Services/RedisTaskQueueService.cs:37-44 | polling one queue hands out a task another worker has claimed on another queue |
| RedisKeys.UnescapeEscape | src/TaskQueue.Api/Services/RedisTaskQueueService.cs:18-19 | escaping a name is undone by unescaping, so distinct names escape differently |
| RedisKeys.SlotKeyInjective | src/TaskQueue.Api/Services/RedisTaskQueueService.cs:18-19 | with escaped names, different lists always have different keys |
| RedisKeys.SlotKeyCompatible | src/TaskQueue.Api/Services/RedisTaskQueueService.cs:18-19 | for names without colons or backslashes, the escaped keys equal the keys written today |
| RedisKeys.MirrorsRead | src/TaskQueue.Api/Services/RedisTaskQueueService.cs:18-19 | for plain names, the lists read under the service's own pending and processing keys are the store's lists, and the two keys differ |
| RedisKeys.RawEnqueueMirrors | src/TaskQueue.Api/Services/RedisTaskQueueService.cs:21-34 | for a plain queue name, RPUSH on the service's own key leaves the keyspace mirroring the store after `Coordinator.Enqueue` |
| RedisKeys.RawDequeueMirrors | src/TaskQueue.Api/Services/RedisTaskQueueService.cs:37-53 | for plain names, LMOVE between the service's own keys leaves the keyspace mirroring the store after `Coordinator.Dequeue`, and returns the moved value exactly as the dequeued task when readable |

## Left out

- Redis and JSON: StackExchange.Redis and System.Text.Json are not modelled. A stored value is a task record or `Unreadable`. Two values are equal when their records are equal, which assumes the serialiser is deterministic.
- Malformed values: a value that is not valid JSON, or lacks the required `Command`, makes deserialisation throw. Dequeue has then already moved it and the endpoint answers 500; Acknowledge, Reject and the reads abort instead of skipping it. The model has no such value: every value is a record or `Unreadable`.
- Key strings: the Coordinator, Invariants, Traces, Delivery and Endpoints contracts are stated over lists keyed by `Slot`. They hold of the service's own string keys only when no queue or worker name contains ':' (the finding below). For names with neither ':' nor '\\' the keyspace mirrors the store through Enqueue and Dequeue (`RedisKeys.RawEnqueueMirrors`, `RedisKeys.RawDequeueMirrors`); Acknowledge, Reject and the reads touch the same two keys (`RedisKeys.MirrorsRead`, `RedisKeys.MirrorsPut`) but have no raw counterpart of their own.
- Concurrency and atomicity: the model is sequential. The cross-client exclusivity of LMOVE is not modelled. The gap between LREM and LPUSH in Reject is not modelled either, so no other client can observe it in the model.
- HTTP transport: the listener's HTTP client is abstracted to what each call returned or threw. Framework binding (a missing JSON body or a malformed `requeue` value) and the framework's own error responses are not modelled.
- Command handlers: the processes they launch are not modelled. Each handler is an opaque outcome: true, false, or an exception.
- Wiring, configuration and logging: both `Program.cs` files, `JsonContext.cs`, configuration reads and log calls. The listener's `Authorization` header is the one exception (`TokenAuth.ClientAuthorization`).
- Time and identifiers: `DateTime.UtcNow` and GUID generation are parameters. Freshness of an Id is a precondition of `Invariants.EnqueueKeepsInv`. Delay durations are not modelled.
- Unicode: case folding, white space and `StartsWithSegments` are modelled on ASCII. Characters outside ASCII compare and trim as themselves.
- Polling.Execute: runs over a finite schedule of ticks, so a loop that is never cancelled is modelled only up to any finite length.
- Delivery.AtLeastOnce: covers only cycles whose acknowledge and reject requests are answered with success. The client returns `false` for a refused request (a 401 or a 500) without throwing, and the cycle ignores it: the task then stays in the worker's processing list, where no later poll reaches it. A request that throws after the service acted on it leaves the outcome unknown.
- Listener-side record: `Listener/Models/TaskCommand.cs` mirrors the API record and reuses `TaskModel.TaskCommand`.

## Findings

| source | as written | input that shows it | evidently intended | confidence | as-written member | corrected member |
|---|---|---|---|---|---|---|
| src/TaskQueue.Api/Services/RedisTaskQueueService.cs:18-19 | keys splice raw queue and worker names between colons, so distinct lists can share a key | queue "a:processing:b" has the pending key of worker "b:commands" on queue "a"; worker "b:processing:c" on "a" shares a key with worker "c" on "a:processing:b" | every queue and every (queue, worker) pair owns a separate list | high (not executed) | RedisKeys.QueueKeyIsProcessingKey | RedisKeys.SlotKeyInjective |

=== FILE: common.dfy ===
/** Small shared vocabulary: optional values, the outcome of a remote or
    opaque call, and the ASCII approximations of the .NET string helpers
    (ordinal-ignore-case comparison, whitespace trimming) the core relies on. */
module Common {

  datatype Option<+T> = None | Some(value: T)

  /** What an opaque call did: it returned a boolean, or it threw. */
  datatype Outcome = Returned(ok: bool) | Threw

  /** `string.IsNullOrEmpty` on a possibly absent string. */
  predicate IsNullOrEmpty(s: Option<string>) {
    s.None? || |s.value| == 0
  }

  /** `FirstOrDefault()` on the values of a header: null when there is none. */
  function FirstOrDefault(values: seq<string>): (r: Option<string>)
    ensures r.None? <==> |values| == 0
    ensures r.Some? ==> r.value == values[0]
  {
    if |values| == 0 then None else Some(values[0])
  }

  /** ASCII case folding; OrdinalIgnoreCase agrees with it on ASCII text. */
  function ToLower(c: char): char {
    if 'A' <= c <= 'Z' then (c as int + 32) as char else c
  }

  function Fold(s: string): (r: string)
    ensures |r| == |s|
    ensures forall i :: 0 <= i < |s| ==> r[i] == ToLower(s[i])
  {
    if |s| == 0 then [] else [ToLower(s[0])] + Fold(s[1..])
  }

  /** Folding is decided character by character. */
  lemma FoldAs(u: string, a: string)
    requires |u| == |a|
    requires forall i :: 0 <= i < |u| ==> ToLower(u[i]) == a[i]
    ensures Fold(u) == a
  {
  }

  predicate EqualsIgnoreCase(a: string, b: string) {
    Fold(a) == Fold(b)
  }

  /** `s.StartsWith(prefix, StringComparison.OrdinalIgnoreCase)`. */
  predicate StartsWithIgnoreCase(s: string, prefix: string) {
    |prefix| <= |s| && EqualsIgnoreCase(s[..|prefix|], prefix)
  }

  /** The ASCII white-space characters: tab, line feed, vertical tab, form
      feed, carriage return and space. */
  predicate IsWhiteSpace(c: char) {
    c == ' ' || 9 <= c as int <= 13
  }

  predicate AllWhiteSpace(s: string) {
    forall i :: 0 <= i < |s| ==> IsWhiteSpace(s[i])
  }

  /** Neither end of `s` is white space. */
  predicate IsTrimmed(s: string) {
    |s| == 0 || (!IsWhiteSpace(s[0]) && !IsWhiteSpace(s[|s| - 1]))
  }

  /** Drops leading white space: the result is the suffix of `s` that starts
      at its first non-white-space character. */
  function TrimStart(s: string): (r: string)
    ensures |r| <= |s| && r == s[|s| - |r|..]
    ensures AllWhiteSpace(s[..|s| - |r|])
    ensures |r| > 0 ==> !IsWhiteSpace(r[0])
    ensures |r| > 0 ==> r[|r| - 1] == s[|s| - 1]
  {
    if |s| == 0 then s
    else if IsWhiteSpace(s[0]) then
      var r := TrimStart(s[1..]);
      WhiteSpaceThenSuffix(s, r);
      r
    else s
  }

  /** One white-space character in front of a white-space-padded suffix. */
  lemma WhiteSpaceThenSuffix(s: string, r: string)
    requires |s| > 0 && IsWhiteSpace(s[0])
    requires |r| <= |s| - 1 && r == s[1..][|s| - 1 - |r|..]
    requires AllWhiteSpace(s[1..][..|s| - 1 - |r|])
    ensures r == s[|s| - |r|..] && AllWhiteSpace(s[..|s| - |r|])
  {
    assert s[..|s| - |r|] == [s[0]] + s[1..][..|s| - 1 - |r|];
  }

  /** Drops trailing white space: the result is the prefix of `s` that ends
      at its last non-white-space character. */
  function TrimEnd(s: string): (r: string)
    ensures |r| <= |s| && r == s[..|r|]
    ensures AllWhiteSpace(s[|r|..])
    ensures |r| > 0 ==> !IsWhiteSpace(r[|r| - 1])
    ensures |r| > 0 ==> r[0] == s[0]
  {
    if |s| == 0 then s
    else if IsWhiteSpace(s[|s| - 1]) then TrimEnd(s[..|s| - 1])
    else s
  }

  /** `string.Trim()`: the result is a trimmed infix of `s` and what it drops
      on either side is white space. */
  function Trim(s: string): (r: string)
    ensures IsTrimmed(r)
    ensures exists i :: PaddedAt(s, r, i)
  {
    var t := TrimStart(s);
    var r := TrimEnd(t);
    PrefixOfSuffix(s, t, r);
    r
  }

  /** `s` is `r` at offset `i` with only white space on either side. */
  predicate PaddedAt(s: string, r: string, i: int) {
    && 0 <= i <= |s| - |r| && r == s[i..i + |r|]
    && AllWhiteSpace(s[..i]) && AllWhiteSpace(s[i + |r|..])
  }

  /** A prefix `r` of a suffix `t` of `s` is the infix of `s` that starts
      where `t` does; what `s` has beyond `r` is what `t` has beyond it.
      When `t` starts and `r` ends on text, `r` is trimmed. */
  lemma PrefixOfSuffix(s: string, t: string, r: string)
    requires |t| <= |s| && t == s[|s| - |t|..] && AllWhiteSpace(s[..|s| - |t|])
    requires |r| <= |t| && r == t[..|r|] && AllWhiteSpace(t[|r|..])
    requires |t| > 0 ==> !IsWhiteSpace(t[0])
    requires |r| > 0 ==> r[0] == t[0] && !IsWhiteSpace(r[|r| - 1])
    ensures IsTrimmed(r) && PaddedAt(s, r, |s| - |t|)
  {
    var i := |s| - |t|;
    assert s[i + |r|..] == t[|r|..];
  }

  /** Trimming undoes white-space padding around text whose ends are not
      white space. */
  lemma {:induction false} TrimPadded(pre: string, t: string, post: string)
    requires AllWhiteSpace(pre) && AllWhiteSpace(post)
    requires |t| > 0 && IsTrimmed(t)
    ensures Trim(pre + t + post) == t
  {
    var s := pre + t + post;
    assert s == pre + (t + post);
    TrimStartPadded(pre, t + post);
    assert TrimStart(s) == t + post;
    TrimEndPadded(t, post);
    assert TrimEnd(t + post) == t;
  }

  lemma {:induction false} TrimStartPadded(pre: string, s: string)
    requires AllWhiteSpace(pre)
    requires |s| > 0 && !IsWhiteSpace(s[0])
    ensures TrimStart(pre + s) == s
  {
    if |pre| > 0 {
      assert (pre + s)[1..] == pre[1..] + s;
      TrimStartPadded(pre[1..], s);
    } else {
      assert pre + s == s;
    }
  }

  lemma {:induction false} TrimEndPadded(s: string, post: string)
    requires AllWhiteSpace(post)
    requires |s| > 0 && !IsWhiteSpace(s[|s| - 1])
    ensures TrimEnd(s + post) == s
  {
    if |post| > 0 {
      assert (s + post)[..|s + post| - 1] == s + post[..|post| - 1];
      TrimEndPadded(s, post[..|post| - 1]);
    } else {
      assert s + post == s;
    }
  }
}

=== FILE: coordinator.dfy ===
/** RedisTaskQueueService: the queue coordinator as pure transitions over the
    Redis lists it uses. Every queue `q` has a pending list and every pair of
    queue and worker a processing list; an absent Redis key reads as an empty
    list. */
module Coordinator {
  import opened Common
  import opened TaskModel
  import opened Lists

  /** The list a Redis key names: `task-queue:{q}:commands` for the pending
      list of `q`, `task-queue:{q}:processing:{w}` for worker `w`'s in-flight
      list. The constructors keep the two kinds apart for every name. */
  datatype Slot = PendingOf(queue: string) | ProcessingOf(queue: string, worker: string)

  datatype Store = Store(lists: map<Slot, seq<Entry>>)

  /** The state after an operation and what the operation returned. */
  datatype Step<T> = Step(store: Store, result: T)

  const EmptyStore := Store(map[])

  /** LRANGE key 0 -1. */
  function ListAt(s: Store, k: Slot): seq<Entry> {
    if k in s.lists then s.lists[k] else []
  }

  /** Replaces one list and leaves every other list alone. */
  function Put(s: Store, k: Slot, l: seq<Entry>): (r: Store)
    ensures ListAt(r, k) == l
    ensures forall k' :: k' != k ==> ListAt(r, k') == ListAt(s, k')
  {
    Store(s.lists[k := l])
  }

  /** The foreach of AcknowledgeAsync and RejectAsync: the index of the first
      entry, in list order, that is readable and has Id `id`. */
  function FindById(l: seq<Entry>, id: string): (r: Option<nat>)
    ensures r.Some? ==> r.value < |l| && Matches(l[r.value], id)
    ensures r.Some? ==> forall i :: 0 <= i < r.value ==> !Matches(l[i], id)
    ensures r.None? <==> forall i :: 0 <= i < |l| ==> !Matches(l[i], id)
  {
    if |l| == 0 then None
    else if Matches(l[0], id) then Some(0)
    else match FindById(l[1..], id)
      case None => None
      case Some(k) => Some(k + 1)
  }

  /** EnqueueAsync: builds a Pending task with the given fresh Id and clock
      reading and RPUSHes it onto the pending list of `q`. */
  function Enqueue(s: Store, q: string, command: string, parameters: Option<map<string, string>>,
                   id: string, now: int): (r: Step<TaskCommand>)
    ensures r.result.id == id && r.result.command == command && r.result.parameters == parameters
    ensures r.result.createdAt == now && r.result.status == Pending
    ensures ListAt(r.store, PendingOf(q)) == ListAt(s, PendingOf(q)) + [Stored(r.result)]
    ensures forall k :: k != PendingOf(q) ==> ListAt(r.store, k) == ListAt(s, k)
  {
    var t := NewTask(id, command, parameters, now);
    Step(Put(s, PendingOf(q), ListAt(s, PendingOf(q)) + [Stored(t)]), t)
  }

  /** DequeueAsync: LMOVE from the left of the pending list to the right of
      the worker's processing list. A nil move (empty queue) returns no task;
      a moved value that does not deserialise is moved all the same and also
      returns no task. */
  function Dequeue(s: Store, q: string, w: string): (r: Step<Option<TaskCommand>>)
    ensures |ListAt(s, PendingOf(q))| == 0 ==> r == Step(s, None)
    ensures |ListAt(s, PendingOf(q))| > 0 ==>
      var head := ListAt(s, PendingOf(q))[0];
      && ListAt(r.store, PendingOf(q)) == ListAt(s, PendingOf(q))[1..]
      && ListAt(r.store, ProcessingOf(q, w)) == ListAt(s, ProcessingOf(q, w)) + [head]
      && (r.result.Some? <==> head.Stored?)
      && (r.result.Some? ==> head == Stored(r.result.value))
    ensures forall k :: k != PendingOf(q) && k != ProcessingOf(q, w) ==> ListAt(r.store, k) == ListAt(s, k)
    ensures multiset(ListAt(r.store, PendingOf(q))) + multiset(ListAt(r.store, ProcessingOf(q, w)))
         == multiset(ListAt(s, PendingOf(q))) + multiset(ListAt(s, ProcessingOf(q, w)))
  {
    var pending := ListAt(s, PendingOf(q));
    if |pending| == 0 then Step(s, None)
    else
      var head := pending[0];
      assert pending == [head] + pending[1..];
      var moved := Put(Put(s, PendingOf(q), pending[1..]), ProcessingOf(q, w), ListAt(s, ProcessingOf(q, w)) + [head]);
      Step(moved, if head.Stored? then Some(head.task) else None)
  }

  /** AcknowledgeAsync: finds the first matching entry of the worker's
      processing list and LREMs it with count 0 (every equal value goes). */
  function Acknowledge(s: Store, q: string, taskId: string, w: string): (r: Step<bool>)
    ensures r.result <==> exists i :: 0 <= i < |ListAt(s, ProcessingOf(q, w))| && Matches(ListAt(s, ProcessingOf(q, w))[i], taskId)
    ensures !r.result ==> r.store == s
    ensures r.result ==>
      var l := ListAt(s, ProcessingOf(q, w));
      var k := FindById(l, taskId).value;
      ListAt(r.store, ProcessingOf(q, w)) == RemoveAll(l, l[k])
    ensures forall k :: k != ProcessingOf(q, w) ==> ListAt(r.store, k) == ListAt(s, k)
  {
    var l := ListAt(s, ProcessingOf(q, w));
    match FindById(l, taskId)
    case None => Step(s, false)
    case Some(k) => Step(Put(s, ProcessingOf(q, w), RemoveAll(l, l[k])), true)
  }

  /** RejectAsync: the same scan and LREM as Acknowledge, then, when `requeue`
      holds, LPUSH of the identical value onto the pending list of `q`. */
  function Reject(s: Store, q: string, taskId: string, w: string, requeue: bool): (r: Step<bool>)
    ensures r.result <==> exists i :: 0 <= i < |ListAt(s, ProcessingOf(q, w))| && Matches(ListAt(s, ProcessingOf(q, w))[i], taskId)
    ensures !r.result ==> r.store == s
    ensures r.result ==>
      var l := ListAt(s, ProcessingOf(q, w));
      var k := FindById(l, taskId).value;
      && ListAt(r.store, ProcessingOf(q, w)) == RemoveAll(l, l[k])
      && ListAt(r.store, PendingOf(q)) == (if requeue then [l[k]] else []) + ListAt(s, PendingOf(q))
    ensures forall k :: k != ProcessingOf(q, w) && k != PendingOf(q) ==> ListAt(r.store, k) == ListAt(s, k)
  {
    var l := ListAt(s, ProcessingOf(q, w));
    match FindById(l, taskId)
    case None => Step(s, false)
    case Some(k) =>
      var removed := Put(s, ProcessingOf(q, w), RemoveAll(l, l[k]));
      if requeue then Step(Put(removed, PendingOf(q), [l[k]] + ListAt(s, PendingOf(q))), true)
      else Step(removed, true)
  }

  /** Every entry of the list is readable. */
  predicate AllStored(l: seq<Entry>) {
    forall i :: 0 <= i < |l| ==> l[i].Stored?
  }

  /** The LINQ pipeline of GetProcessingTasksAsync and PeekAllAsync: drops
      unreadable values and deserialises the rest, in list order. */
  function Readable(l: seq<Entry>): (r: seq<TaskCommand>)
    ensures |r| <= |l|
    ensures forall t :: t in r <==> Stored(t) in l
    ensures AllStored(l) ==> |r| == |l| && forall i :: 0 <= i < |l| ==> r[i] == l[i].task
  {
    if |l| == 0 then []
    else
      assert l == [l[0]] + l[1..];
      (if l[0].Stored? then [l[0].task] else []) + Readable(l[1..])
  }

  lemma {:induction false} ReadableAppend(a: seq<Entry>, b: seq<Entry>)
    ensures Readable(a + b) == Readable(a) + Readable(b)
  {
    if |a| > 0 {
      assert (a + b)[1..] == a[1..] + b;
      ReadableAppend(a[1..], b);
    } else {
      assert a + b == b;
    }
  }

  /** GetProcessingTasksAsync: the worker's in-flight tasks, in list order,
      read without changing the store. */
  function GetProcessingTasks(s: Store, q: string, w: string): (r: seq<TaskCommand>)
    ensures forall t :: t in r <==> Stored(t) in ListAt(s, ProcessingOf(q, w))
    ensures AllStored(ListAt(s, ProcessingOf(q, w))) ==>
      |r| == |ListAt(s, ProcessingOf(q, w))| && forall i :: 0 <= i < |r| ==> Stored(r[i]) == ListAt(s, ProcessingOf(q, w))[i]
  {
    Readable(ListAt(s, ProcessingOf(q, w)))
  }

  /** PeekAllAsync: the pending tasks of `q` from head to tail, read without
      changing the store. */
  function PeekAll(s: Store, q: string): (r: seq<TaskCommand>)
    ensures forall t :: t in r <==> Stored(t) in ListAt(s, PendingOf(q))
    ensures AllStored(ListAt(s, PendingOf(q))) ==>
      |r| == |ListAt(s, PendingOf(q))| && forall i :: 0 <= i < |r| ==> Stored(r[i]) == ListAt(s, PendingOf(q))[i]
  {
    Readable(ListAt(s, PendingOf(q)))
  }

  /** GetQueueLengthAsync: LLEN of the pending list. It counts raw values, so
      it bounds what PeekAll shows and equals it when every value is readable. */
  function GetQueueLength(s: Store, q: string): (n: nat)
    ensures n == |ListAt(s, PendingOf(q))|
    ensures |PeekAll(s, q)| <= n
    ensures AllStored(ListAt(s, PendingOf(q))) ==> n == |PeekAll(s, q)|
  {
    |ListAt(s, PendingOf(q))|
  }
}

=== FILE: delivery.dfy ===
/** The listener and the coordinator together: a worker claims the head of a
    queue, runs one poll cycle on it, and the acknowledgement or rejection the
    cycle sends is applied to the store. A task that fails goes back exactly
    where it was; a task that succeeds is gone. */
module Delivery {
  import opened Common
  import opened TaskModel
  import opened Coordinator
  import opened Invariants
  import Polling

  /** Every list of the two stores is the same. */
  ghost predicate SameLists(a: Store, b: Store) {
    forall k :: ListAt(a, k) == ListAt(b, k)
  }

  /** The effect on the store of one call the cycle issued, made by worker
      `w` against queue `q`; the dispatch itself touches no list. */
  function ApplyCall(s: Store, q: string, w: string, c: Polling.IssuedCall): (r: Store)
    ensures c.RunHandler? ==> r == s
    ensures !(c.SendReject? && c.requeue) ==> ListAt(r, PendingOf(q)) == ListAt(s, PendingOf(q))
    ensures forall k :: k != ProcessingOf(q, w) && k != PendingOf(q) ==> ListAt(r, k) == ListAt(s, k)
  {
    match c
    case RunHandler(_) => s
    case SendAck(id) => Acknowledge(s, q, id, w).store
    case SendReject(id, requeue) => Reject(s, q, id, w, requeue).store
  }

  /** No call the cycle issues breaks the lifecycle invariant. */
  lemma ApplyCallKeepsInv(s: Store, q: string, w: string, c: Polling.IssuedCall)
    requires Inv(s)
    ensures Inv(ApplyCall(s, q, w, c))
  {
    match c
    case RunHandler(_) =>
    case SendAck(id) => AcknowledgeKeepsInv(s, q, id, w);
    case SendReject(id, requeue) => RejectKeepsInv(s, q, id, w, requeue);
  }

  /** The effect of the calls of one cycle, in the order they were issued. */
  function ApplyCalls(s: Store, q: string, w: string, calls: seq<Polling.IssuedCall>): Store
    decreases |calls|
  {
    if |calls| == 0 then s else ApplyCalls(ApplyCall(s, q, w, calls[0]), q, w, calls[1..])
  }

  lemma {:induction false} ApplyTwo(s: Store, q: string, w: string, calls: seq<Polling.IssuedCall>)
    requires |calls| == 2
    ensures ApplyCalls(s, q, w, calls) == ApplyCall(ApplyCall(s, q, w, calls[0]), q, w, calls[1])
  {
    var s1 := ApplyCall(s, q, w, calls[0]);
    assert calls[1..] == [calls[1]];
    assert ApplyCalls(s, q, w, calls) == ApplyCalls(s1, q, w, [calls[1]]);
    assert [calls[1]][1..] == [];
  }

  /** Every acknowledgement or rejection the cycle sends is answered with a
      success status: it reached the service and the service acted on it.
      (The client reports a refused request, a 401 or a 500, as `false`
      without throwing, and the cycle ignores that flag.) */
  predicate ResolutionsDelivered(o: Polling.CycleInputs) {
    && (o.dispatch == Returned(true) ==> o.ack == Returned(true))
    && (o.dispatch == Returned(false) ==> o.reject == Returned(true))
    && (o.dispatch.Threw? ==> o.retryReject == Returned(true))
  }

  /** The claimed task sits at the tail of the worker's processing list, and
      a lookup by its Id finds that position. */
  lemma ClaimedIsLast(s: Store, q: string, w: string)
    requires Inv(s)
    requires Dequeue(s, q, w).result.Some?
    ensures var s1 := Dequeue(s, q, w).store;
      var l := ListAt(s1, ProcessingOf(q, w));
      && Inv(s1)
      && FindById(l, Dequeue(s, q, w).result.value.id) == Some(|ListAt(s, ProcessingOf(q, w))|)
  {
    var s1 := Dequeue(s, q, w).store;
    var t := Dequeue(s, q, w).result.value;
    var n := |ListAt(s, ProcessingOf(q, w))|;
    DequeueKeepsInv(s, q, w);
    assert Holds(s1, ProcessingOf(q, w), n, t.id);
    var m := FindById(ListAt(s1, ProcessingOf(q, w)), t.id).value;
    assert Holds(s1, ProcessingOf(q, w), m, t.id);
  }

  /** At-least-once delivery for one claimed task, as one worker sees it:
      when the handler reports success the task is acknowledged and no longer
      anywhere in the store; when it reports failure or throws, the task is
      requeued and every list is exactly as it was before the claim, so the
      same task is the next one any worker polls. The invariant holds
      throughout and no exception escapes the cycle. */
  lemma {:induction false} AtLeastOnce(s: Store, q: string, w: string, o: Polling.CycleInputs)
    requires Inv(s)
    requires Dequeue(s, q, w).result.Some?
    requires o.poll == Polling.Received(Dequeue(s, q, w).result.value)
    requires ResolutionsDelivered(o)
    ensures var t := Dequeue(s, q, w).result.value;
      var report := Polling.PollAndProcess(o);
      var s' := ApplyCalls(Dequeue(s, q, w).store, q, w, report.calls);
      && Inv(s')
      && !report.escaped
      && (o.dispatch == Returned(true) ==>
            && Acknowledge(Dequeue(s, q, w).store, q, t.id, w).result
            && Absent(s', t.id) && ListAt(s', PendingOf(q)) == ListAt(s, PendingOf(q))[1..])
      && (o.dispatch != Returned(true) ==>
            && Reject(Dequeue(s, q, w).store, q, t.id, w, true).result
            && SameLists(s', s) && Dequeue(s', q, w).result == Some(t))
  {
    var d := Dequeue(s, q, w);
    var t := d.result.value;
    var report := Polling.PollAndProcess(o);
    ApplyTwo(d.store, q, w, report.calls);
    if o.dispatch == Returned(true) {
      assert report.calls == [Polling.RunHandler(t), Polling.SendAck(t.id)];
      AcknowledgeClaimed(s, q, w);
    } else {
      assert report.calls == [Polling.RunHandler(t), Polling.SendReject(t.id, true)];
      RequeueClaimed(s, q, w);
    }
  }

  /** Acknowledging the task just claimed removes it from the store. */
  lemma AcknowledgeClaimed(s: Store, q: string, w: string)
    requires Inv(s)
    requires Dequeue(s, q, w).result.Some?
    ensures var d := Dequeue(s, q, w);
      var a := Acknowledge(d.store, q, d.result.value.id, w);
      a.result && Inv(a.store) && Absent(a.store, d.result.value.id)
      && ListAt(a.store, PendingOf(q)) == ListAt(s, PendingOf(q))[1..]
  {
    var d := Dequeue(s, q, w);
    ClaimedIsLast(s, q, w);
    var n := |ListAt(s, ProcessingOf(q, w))|;
    assert Matches(ListAt(d.store, ProcessingOf(q, w))[n], d.result.value.id);
    AcknowledgeKeepsInv(d.store, q, d.result.value.id, w);
  }

  /** Rejecting the task just claimed, with requeue, restores every list. */
  lemma RequeueClaimed(s: Store, q: string, w: string)
    requires Inv(s)
    requires Dequeue(s, q, w).result.Some?
    ensures var d := Dequeue(s, q, w);
      var j := Reject(d.store, q, d.result.value.id, w, true);
      j.result && Inv(j.store) && SameLists(j.store, s)
  {
    var d := Dequeue(s, q, w);
    var t := d.result.value;
    var W := ListAt(s, ProcessingOf(q, w));
    var P := ListAt(s, PendingOf(q));
    ClaimedIsLast(s, q, w);
    var l := ListAt(d.store, ProcessingOf(q, w));
    assert Matches(l[|W|], t.id);
    assert l[..|W|] == W;
    assert l[|W| + 1..] == [];
    var s' := Reject(d.store, q, t.id, w, true).store;
    RejectKeepsInv(d.store, q, t.id, w, true);
    assert ListAt(s', PendingOf(q)) == [P[0]] + P[1..] == P;
  }
}

=== FILE: dispatcher.dfy ===
/** CommandDispatcher: a case-insensitive table from command name to handler,
    built once from the registered handlers, and the lookup that runs one. */
module Dispatch {
  import opened Common
  import opened TaskModel

  /** A registered ICommandHandler, known by its CommandName. What it does
      with a task is opaque: Dispatch is given, per handler index, the outcome
      that handler would produce. */
  datatype Handler = Handler(commandName: string)

  /** The dictionary: each case-folded command name maps to the index of its
      handler in registration order. */
  datatype Dispatcher = Dispatcher(handlers: seq<Handler>, table: map<string, nat>)

  /** Construction either succeeds or stops at the first handler whose name
      repeats an earlier one ignoring case (ToDictionary throws there). */
  datatype Construction = Built(dispatcher: Dispatcher) | DuplicateKey(index: nat)

  /** No two handlers' names are equal ignoring case. */
  predicate DistinctNames(hs: seq<Handler>) {
    forall i, j :: 0 <= i < j < |hs| ==> Fold(hs[i].commandName) != Fold(hs[j].commandName)
  }

  /** The table holds exactly the folded names, each mapped to its handler. */
  ghost predicate WellFormed(d: Dispatcher) {
    && DistinctNames(d.handlers)
    && (forall key :: key in d.table <==> exists i :: 0 <= i < |d.handlers| && Fold(d.handlers[i].commandName) == key)
    && (forall i :: 0 <= i < |d.handlers| ==>
          Fold(d.handlers[i].commandName) in d.table && d.table[Fold(d.handlers[i].commandName)] == i)
  }

  /** The constructor: a dictionary keyed by each handler's command name
      under an ordinal case-insensitive comparer, filled in registration
      order; a second key equal to an earlier one makes it throw. */
  function Build(hs: seq<Handler>): (r: Construction)
    ensures r.Built? <==> DistinctNames(hs)
    ensures r.Built? ==> r.dispatcher.handlers == hs && WellFormed(r.dispatcher)
    ensures r.DuplicateKey? ==>
      && r.index < |hs|
      && DistinctNames(hs[..r.index])
      && exists j :: 0 <= j < r.index && Fold(hs[j].commandName) == Fold(hs[r.index].commandName)
  {
    if |hs| == 0 then Built(Dispatcher([], map[]))
    else
      var n := |hs| - 1;
      var key := Fold(hs[n].commandName);
      match Build(hs[..n])
      case DuplicateKey(i) =>
        PrefixOfPrefix(hs, n, i);
        DuplicateKey(i)
      case Built(d) =>
        if key in d.table then
          AddDuplicate(hs, d);
          DuplicateKey(n)
        else
          AddFresh(hs, d);
          Built(Dispatcher(hs, d.table[key := n]))
  }

  /** A repeat found in a prefix of `hs` is a repeat in `hs`. */
  lemma PrefixOfPrefix(hs: seq<Handler>, n: nat, i: nat)
    requires i < n <= |hs|
    requires DistinctNames(hs[..n][..i])
    requires exists j :: 0 <= j < i && Fold(hs[..n][j].commandName) == Fold(hs[..n][i].commandName)
    ensures DistinctNames(hs[..i])
    ensures exists j :: 0 <= j < i && Fold(hs[j].commandName) == Fold(hs[i].commandName)
    ensures !DistinctNames(hs)
  {
    assert hs[..n][..i] == hs[..i];
    var j :| 0 <= j < i && Fold(hs[..n][j].commandName) == Fold(hs[..n][i].commandName);
    assert hs[..n][j] == hs[j] && hs[..n][i] == hs[i];
  }

  /** The last handler's folded name is already a key: it repeats an earlier one. */
  lemma AddDuplicate(hs: seq<Handler>, d: Dispatcher)
    requires |hs| > 0 && d.handlers == hs[..|hs| - 1] && WellFormed(d)
    requires Fold(hs[|hs| - 1].commandName) in d.table
    ensures !DistinctNames(hs)
    ensures DistinctNames(hs[..|hs| - 1])
    ensures exists j :: 0 <= j < |hs| - 1 && Fold(hs[j].commandName) == Fold(hs[|hs| - 1].commandName)
  {
    var n := |hs| - 1;
    var j :| 0 <= j < |d.handlers| && Fold(d.handlers[j].commandName) == Fold(hs[n].commandName);
    assert hs[j] == d.handlers[j];
  }

  /** Adding a handler whose folded name is new keeps the table well formed. */
  lemma AddFresh(hs: seq<Handler>, d: Dispatcher)
    requires |hs| > 0 && d.handlers == hs[..|hs| - 1] && WellFormed(d)
    requires Fold(hs[|hs| - 1].commandName) !in d.table
    ensures DistinctNames(hs)
    ensures WellFormed(Dispatcher(hs, d.table[Fold(hs[|hs| - 1].commandName) := |hs| - 1]))
  {
    var n := |hs| - 1;
    var key := Fold(hs[n].commandName);
    var d' := Dispatcher(hs, d.table[key := n]);
    AddFreshDistinct(hs, d);
    AddFreshKeys(hs, d, d'.table);
    forall i | 0 <= i < |hs|
      ensures Fold(hs[i].commandName) in d'.table && d'.table[Fold(hs[i].commandName)] == i
    {
      if i < n {
        assert hs[i] == d.handlers[i];
      }
    }
  }

  lemma AddFreshDistinct(hs: seq<Handler>, d: Dispatcher)
    requires |hs| > 0 && d.handlers == hs[..|hs| - 1] && WellFormed(d)
    requires Fold(hs[|hs| - 1].commandName) !in d.table
    ensures DistinctNames(hs)
  {
    var n := |hs| - 1;
    forall i | 0 <= i < n
      ensures Fold(hs[i].commandName) != Fold(hs[n].commandName)
    {
      assert hs[i] == d.handlers[i];
    }
  }

  lemma AddFreshKeys(hs: seq<Handler>, d: Dispatcher, table: map<string, nat>)
    requires |hs| > 0 && d.handlers == hs[..|hs| - 1] && WellFormed(d)
    requires table == d.table[Fold(hs[|hs| - 1].commandName) := |hs| - 1]
    ensures forall k :: k in table <==> exists i :: 0 <= i < |hs| && Fold(hs[i].commandName) == k
  {
    var n := |hs| - 1;
    var key := Fold(hs[n].commandName);
    forall k | k in table
      ensures exists i :: 0 <= i < |hs| && Fold(hs[i].commandName) == k
    {
      if k != key {
        var i :| 0 <= i < |d.handlers| && Fold(d.handlers[i].commandName) == k;
        assert hs[i] == d.handlers[i];
      } else {
        assert Fold(hs[n].commandName) == k;
      }
    }
    forall i | 0 <= i < |hs|
      ensures Fold(hs[i].commandName) in table
    {
      if i < n {
        assert hs[i] == d.handlers[i];
      }
    }
  }

  /** What DispatchAsync did: which handler it invoked, if any, and what it
      returned or threw. */
  datatype Dispatched = Dispatched(invoked: Option<nat>, outcome: Outcome)

  /** DispatchAsync: TryGetValue on the command name; an unknown command
      returns false without invoking anything; otherwise the handler's result,
      or its exception, passes through unchanged. */
  function DispatchTask(d: Dispatcher, task: TaskCommand, run: nat -> Outcome): (r: Dispatched)
    requires WellFormed(d)
    ensures r.invoked.None? <==> forall i :: 0 <= i < |d.handlers| ==> !EqualsIgnoreCase(d.handlers[i].commandName, task.command)
    ensures r.invoked.None? ==> r.outcome == Returned(false)
    ensures r.invoked.Some? ==>
      && r.invoked.value < |d.handlers|
      && EqualsIgnoreCase(d.handlers[r.invoked.value].commandName, task.command)
      && r.outcome == run(r.invoked.value)
  {
    var key := Fold(task.command);
    if key in d.table then
      var i := d.table[key];
      Dispatched(Some(i), run(i))
    else
      Dispatched(None, Returned(false))
  }

  /** Commands that differ only in letter case reach the same handler with
      the same result. */
  lemma CaseInsensitiveDispatch(d: Dispatcher, t1: TaskCommand, t2: TaskCommand, run: nat -> Outcome)
    requires WellFormed(d)
    requires EqualsIgnoreCase(t1.command, t2.command)
    ensures DispatchTask(d, t1, run) == DispatchTask(d, t2, run)
  {
  }

  /** With the two handlers the listener registers, "RUN-SCRIPT" is handled by
      the handler named "run-script". */
  lemma UpperCaseReachesRunScript(t: TaskCommand, run: nat -> Outcome)
    requires t.command == "RUN-SCRIPT"
    ensures Build(ListenerHandlers).Built?
    ensures DispatchTask(Build(ListenerHandlers).dispatcher, t, run).invoked == Some(0)
  {
    ListenerHandlersBuild();
    FoldRunScript();
    var d := Build(ListenerHandlers).dispatcher;
    assert EqualsIgnoreCase(d.handlers[0].commandName, t.command);
  }

  /** The handlers the listener registers, in registration order. */
  const ListenerHandlers := [Handler("run-script"), Handler("open-browser")]

  lemma ListenerHandlersBuild()
    ensures Build(ListenerHandlers).Built?
  {
    NamesDistinct("run-script", "open-browser");
  }

  /** Two names whose first letters differ ignoring case are distinct; the
      listener's "run-script" and "open-browser" are such a pair. */
  lemma NamesDistinct(a: string, b: string)
    requires |a| > 0 && |b| > 0 && a[0] == 'r' && b[0] == 'o'
    ensures DistinctNames([Handler(a), Handler(b)])
  {
    assert Fold(a)[0] != Fold(b)[0];
  }

  lemma FoldRunScript()
    ensures Fold("RUN-SCRIPT") == "run-script" && Fold("run-script") == "run-script"
  {
    FoldRunScriptUpper("RUN-SCRIPT");
    FoldRunScriptLower("run-script");
  }

  lemma FoldRunScriptUpper(u: string)
    requires u == "RUN-SCRIPT"
    ensures Fold(u) == "run-script"
  {
    FoldAs(u, "run-script");
  }

  lemma FoldRunScriptLower(a: string)
    requires a == "run-script"
    ensures Fold(a) == a
  {
    FoldAs(a, a);
  }

  /** Registering two handlers whose names differ only in case fails. */
  lemma CaseClashRejected(a: string, b: string)
    requires EqualsIgnoreCase(a, b)
    ensures Build([Handler(a), Handler(b)]) == DuplicateKey(1)
  {
    var hs := [Handler(a), Handler(b)];
    assert hs[..1] == [Handler(a)];
    assert [Handler(a)][..0] == [];
  }
}

=== FILE: endpoints.dfy ===
/** TaskEndpoints: the HTTP decision table in front of the coordinator. Each
    route validates the `queue` query parameter, then (for the routes that
    act for a worker) the X-Worker-Id header, then calls one coordinator
    operation and maps its result to a status code. */
module Endpoints {
  import opened Common
  import opened TaskModel
  import opened Coordinator
  import opened Invariants

  /** The seven routes, with the inputs each binds from the path, the query
      string or the JSON body (besides `queue`). A reject without a
      `requeue` query value binds the default. */
  datatype Route =
    | EnqueueTask(command: string, parameters: Option<map<string, string>>)
    | PollTask
    | AcknowledgeTask(taskId: string)
    | RejectTask(taskId: string, requeue: Option<bool>)
    | GetProcessingTasks
    | GetAllTasks
    | GetTaskCount

  /** A request: its route, the `queue` query value if any, and the values of
      the X-Worker-Id header. */
  datatype Request = Request(route: Route, queue: Option<string>, workerIds: seq<string>)

  datatype Body =
    | NoBody
    | Error(message: string)
    | OneTask(task: TaskCommand)
    | TaskList(tasks: seq<TaskCommand>)
    | Count(count: nat)

  datatype Response = Response(status: nat, location: Option<string>, body: Body)

  const QueueRequired := "queue query parameter is required"
  const WorkerRequired := "X-Worker-Id header is required"

  function BadRequest(message: string): Response {
    Response(400, None, Error(message))
  }

  /** The routes that read the X-Worker-Id header. */
  predicate ActsForWorker(r: Route) {
    r.PollTask? || r.AcknowledgeTask? || r.RejectTask? || r.GetProcessingTasks?
  }

  /** The routes that only read the store. */
  predicate ReadOnly(r: Route) {
    r.GetProcessingTasks? || r.GetAllTasks? || r.GetTaskCount?
  }

  /** `requeue` when the query string leaves it out. */
  function RequeueOrDefault(requeue: Option<bool>): (b: bool)
    ensures requeue.Some? ==> b == requeue.value
    ensures requeue.None? ==> b
  {
    match requeue
    case None => true
    case Some(v) => v
  }

  /** The Location of a created task: `/{id}?queue={queue}`. */
  function CreatedAt(id: string, queue: string): (loc: string)
    ensures |loc| == 1 + |id| + 7 + |queue|
    ensures loc[0] == '/' && loc[1..1 + |id|] == id && loc[1 + |id| + 7..] == queue
    ensures loc[1 + |id|..1 + |id| + 7] == "?queue="
  {
    "/" + id + "?queue=" + queue
  }

  /** The handler of the matched route. `id` and `now` are the fresh GUID and
      clock reading an enqueue uses. */
  function Handle(s: Store, req: Request, id: string, now: int): (r: Step<Response>)
    ensures IsNullOrEmpty(req.queue) ==> r == Step(s, BadRequest(QueueRequired))
    ensures !IsNullOrEmpty(req.queue) && ActsForWorker(req.route) && IsNullOrEmpty(FirstOrDefault(req.workerIds)) ==>
      r == Step(s, BadRequest(WorkerRequired))
    ensures r.result.status in {200, 201, 204, 400, 404}
    ensures r.result.status in {204, 400, 404} ==> r.result.body.NoBody? || r.result.body.Error?
    ensures r.result.status in {400, 404} ==> r.store == s
    ensures ReadOnly(req.route) ==> r.store == s
    ensures r.result.status == 201 <==> req.route.EnqueueTask? && !IsNullOrEmpty(req.queue)
    ensures r.result.status == 201 ==>
      var q := req.queue.value;
      && r.result.location == Some(CreatedAt(id, q))
      && r.result.body.OneTask?
      && r.result.body.task == NewTask(id, req.route.command, req.route.parameters, now)
      && ListAt(r.store, PendingOf(q)) == ListAt(s, PendingOf(q)) + [Stored(r.result.body.task)]
    ensures !IsNullOrEmpty(req.queue) && req.route.GetAllTasks? ==>
      r.result == Response(200, None, TaskList(PeekAll(s, req.queue.value)))
    ensures !IsNullOrEmpty(req.queue) && req.route.GetTaskCount? ==>
      r.result == Response(200, None, Count(GetQueueLength(s, req.queue.value)))
    ensures !IsNullOrEmpty(req.queue) && req.route.GetProcessingTasks? && !IsNullOrEmpty(FirstOrDefault(req.workerIds)) ==>
      r.result == Response(200, None, TaskList(Coordinator.GetProcessingTasks(s, req.queue.value, req.workerIds[0])))
    ensures !IsNullOrEmpty(req.queue) && req.route.EnqueueTask? ==>
      r.store == Enqueue(s, req.queue.value, req.route.command, req.route.parameters, id, now).store
    ensures !IsNullOrEmpty(req.queue) && !IsNullOrEmpty(FirstOrDefault(req.workerIds)) && req.route.PollTask? ==>
      r.store == Dequeue(s, req.queue.value, req.workerIds[0]).store
    ensures !IsNullOrEmpty(req.queue) && !IsNullOrEmpty(FirstOrDefault(req.workerIds)) && req.route.AcknowledgeTask? ==>
      r.store == Acknowledge(s, req.queue.value, req.route.taskId, req.workerIds[0]).store
    ensures !IsNullOrEmpty(req.queue) && !IsNullOrEmpty(FirstOrDefault(req.workerIds)) && req.route.RejectTask? ==>
      r.store == Reject(s, req.queue.value, req.route.taskId, req.workerIds[0], RequeueOrDefault(req.route.requeue)).store
  {
    if IsNullOrEmpty(req.queue) then Step(s, BadRequest(QueueRequired))
    else
      var q := req.queue.value;
      if !ActsForWorker(req.route) then
        match req.route
        case EnqueueTask(command, parameters) =>
          var e := Enqueue(s, q, command, parameters, id, now);
          Step(e.store, Response(201, Some(CreatedAt(id, q)), OneTask(e.result)))
        case GetAllTasks => Step(s, Response(200, None, TaskList(PeekAll(s, q))))
        case GetTaskCount => Step(s, Response(200, None, Count(GetQueueLength(s, q))))
      else
        var worker := FirstOrDefault(req.workerIds);
        if IsNullOrEmpty(worker) then Step(s, BadRequest(WorkerRequired))
        else
          var w := worker.value;
          match req.route
          case PollTask =>
            var d := Dequeue(s, q, w);
            if d.result.None? then Step(d.store, Response(204, None, NoBody))
            else Step(d.store, Response(200, None, OneTask(d.result.value)))
          case AcknowledgeTask(taskId) =>
            var a := Acknowledge(s, q, taskId, w);
            Step(a.store, Response(if a.result then 200 else 404, None, NoBody))
          case RejectTask(taskId, requeue) =>
            var j := Reject(s, q, taskId, w, RequeueOrDefault(requeue));
            Step(j.store, Response(if j.result then 200 else 404, None, NoBody))
          case GetProcessingTasks => Step(s, Response(200, None, TaskList(Coordinator.GetProcessingTasks(s, q, w))))
  }

  /** The queue check comes first: a request missing both the queue and the
      worker header is told about the queue. */
  lemma QueueCheckedFirst(s: Store, route: Route, id: string, now: int)
    ensures Handle(s, Request(route, None, []), id, now).result == BadRequest(QueueRequired)
    ensures Handle(s, Request(route, Some(""), [""]), id, now).result == BadRequest(QueueRequired)
  {
  }

  /** Enqueue, peek and count never read the worker header. */
  lemma WorkerHeaderIgnored(s: Store, route: Route, queue: Option<string>, a: seq<string>, b: seq<string>, id: string, now: int)
    requires !ActsForWorker(route)
    ensures Handle(s, Request(route, queue, a), id, now) == Handle(s, Request(route, queue, b), id, now)
  {
  }

  /** A reject without `requeue` requeues. */
  lemma RejectRequeuesByDefault(s: Store, taskId: string, queue: Option<string>, workers: seq<string>, id: string, now: int)
    ensures Handle(s, Request(RejectTask(taskId, None), queue, workers), id, now)
         == Handle(s, Request(RejectTask(taskId, Some(true)), queue, workers), id, now)
  {
  }

  /** Only the first X-Worker-Id value names the worker. */
  lemma FirstWorkerHeaderCounts(s: Store, route: Route, queue: Option<string>, w: string, extra: seq<string>, id: string, now: int)
    ensures Handle(s, Request(route, queue, [w] + extra), id, now) == Handle(s, Request(route, queue, [w]), id, now)
  {
  }

  /** Poll maps "no task" to 204 and a task to 200 with that task: 204 when
      the queue is empty or its head does not deserialise, 200 with the head
      task otherwise. */
  lemma PollStatus(s: Store, q: string, w: string, id: string, now: int)
    requires |q| > 0 && |w| > 0
    ensures var r := Handle(s, Request(PollTask, Some(q), [w]), id, now).result;
      var pending := ListAt(s, PendingOf(q));
      && (r.status == 204 <==> |pending| == 0 || pending[0].Unreadable?)
      && (r.status == 200 <==> |pending| > 0 && pending[0].Stored?)
      && (r.status == 200 ==> r.body == OneTask(pending[0].task))
  {
  }

  /** Ack and reject answer 200 exactly when the worker's in-flight list holds
      a task with that Id, and 404 otherwise. */
  lemma ResolveStatus(s: Store, q: string, w: string, taskId: string, requeue: Option<bool>, id: string, now: int)
    requires |q| > 0 && |w| > 0
    ensures var l := ListAt(s, ProcessingOf(q, w));
      var found := exists i :: 0 <= i < |l| && Matches(l[i], taskId);
      && Handle(s, Request(AcknowledgeTask(taskId), Some(q), [w]), id, now).result.status == (if found then 200 else 404)
      && Handle(s, Request(RejectTask(taskId, requeue), Some(q), [w]), id, now).result.status == (if found then 200 else 404)
  {
  }

  /** A poll answers 200 with the task at the head of the queue, or 204 when
      the queue is empty; in a store that keeps the invariant there is no
      third case. */
  lemma PollAnswers(s: Store, q: string, w: string, id: string, now: int)
    requires Inv(s)
    requires |q| > 0 && |w| > 0
    ensures var r := Handle(s, Request(PollTask, Some(q), [w]), id, now);
      && (r.result.status == 204 <==> |ListAt(s, PendingOf(q))| == 0)
      && (r.result.status == 200 <==> |ListAt(s, PendingOf(q))| > 0)
      && (r.result.status == 200 ==>
            r.result.body.OneTask?
            && ListAt(s, PendingOf(q))[0] == Stored(r.result.body.task)
            && Coordinator.GetProcessingTasks(r.store, q, w) == Coordinator.GetProcessingTasks(s, q, w) + [r.result.body.task])
  {
    var l := ListAt(s, PendingOf(q));
    if |l| > 0 {
      assert l[0] == ListAt(s, PendingOf(q))[0];
      var d := Dequeue(s, q, w);
      ReadableAppend(ListAt(s, ProcessingOf(q, w)), [l[0]]);
    }
  }

  /** The count endpoint agrees with the length of the peek endpoint's list
      whenever the store keeps the invariant. */
  lemma CountMatchesPeek(s: Store, q: string, workers: seq<string>, id: string, now: int)
    requires Inv(s)
    requires |q| > 0
    ensures var count := Handle(s, Request(GetTaskCount, Some(q), workers), id, now).result;
      var peek := Handle(s, Request(GetAllTasks, Some(q), workers), id, now).result;
      count.status == 200 && peek.status == 200 && count.body.count == |peek.body.tasks|
  {
  }

  /** A second acknowledgement of the same task by the same worker finds
      nothing: the first answered 200, the second 404. */
  lemma SecondAckNotFound(s: Store, q: string, w: string, taskId: string, id: string, now: int)
    requires Inv(s)
    requires |q| > 0 && |w| > 0
    requires Handle(s, Request(AcknowledgeTask(taskId), Some(q), [w]), id, now).result.status == 200
    ensures var s1 := Handle(s, Request(AcknowledgeTask(taskId), Some(q), [w]), id, now).store;
      Handle(s1, Request(AcknowledgeTask(taskId), Some(q), [w]), id, now).result.status == 404
  {
    AcknowledgeOnce(s, q, taskId, w);
  }

  /** What a created task looks like from the peek endpoint: the tasks that
      were pending, then the new one. */
  lemma EnqueueThenPeek(s: Store, q: string, command: string, parameters: Option<map<string, string>>,
                        workers: seq<string>, id: string, now: int)
    requires |q| > 0
    ensures var e := Handle(s, Request(EnqueueTask(command, parameters), Some(q), workers), id, now);
      var peek := Handle(e.store, Request(GetAllTasks, Some(q), workers), id, now).result;
      peek.body == TaskList(PeekAll(s, q) + [NewTask(id, command, parameters, now)])
  {
    var t := NewTask(id, command, parameters, now);
    ReadableAppend(ListAt(s, PendingOf(q)), [Stored(t)]);
  }
}

=== FILE: invariants.dfy ===
/** The lifecycle invariant of the coordinator: every task Id occupies at most
    one position in the whole store (one list, once), and every stored value is
    a readable record whose status is still Pending. Each operation keeps it,
    and the promises about duplicates, idempotence and requeueing follow. */
module Invariants {
  import opened Common
  import opened TaskModel
  import opened Lists
  import opened Coordinator

  /** Position `i` of list `k` holds a task with Id `id`. */
  predicate Holds(s: Store, k: Slot, i: int, id: string) {
    0 <= i < |ListAt(s, k)| && Matches(ListAt(s, k)[i], id)
  }

  /** No Id occupies two positions, in the same list or in different lists. */
  ghost predicate UniqueIds(s: Store) {
    forall k1, i1, k2, i2, id :: Holds(s, k1, i1, id) && Holds(s, k2, i2, id) ==> k1 == k2 && i1 == i2
  }

  /** Every value the service wrote is a record that was never re-stamped. */
  ghost predicate OnlyPendingRecords(s: Store) {
    forall k, i :: 0 <= i < |ListAt(s, k)| ==> ListAt(s, k)[i].Stored? && ListAt(s, k)[i].task.status == Pending
  }

  ghost predicate Inv(s: Store) {
    UniqueIds(s) && OnlyPendingRecords(s)
  }

  /** `id` occurs nowhere in the store: a newly generated GUID, or a task that
      has been acknowledged or discarded. */
  ghost predicate Absent(s: Store, id: string) {
    forall k, i :: !Holds(s, k, i, id)
  }

  lemma EmptyStoreInv()
    ensures Inv(EmptyStore)
  {
  }

  /** Under the invariant a matched value occurs only at its own index, so
      LREM with count 0 removes exactly that one entry. */
  lemma RemoveMatchedIsRemoveOne(s: Store, k: Slot, i: int, id: string)
    requires UniqueIds(s)
    requires Holds(s, k, i, id)
    ensures RemoveAll(ListAt(s, k), ListAt(s, k)[i]) == ListAt(s, k)[..i] + ListAt(s, k)[i + 1..]
  {
    var l := ListAt(s, k);
    forall j | 0 <= j < |l| && j != i
      ensures l[j] != l[i]
    {
      if l[j] == l[i] {
        assert Holds(s, k, j, id);
      }
    }
    RemoveAllSingle(l, i);
  }

  /** Enqueue keeps the invariant when the new task's Id is fresh. */
  lemma EnqueueKeepsInv(s: Store, q: string, command: string, parameters: Option<map<string, string>>,
                        id: string, now: int)
    requires Inv(s) && Absent(s, id)
    ensures Inv(Enqueue(s, q, command, parameters, id, now).store)
  {
    var s' := Enqueue(s, q, command, parameters, id, now).store;
    var P := PendingOf(q);
    var n := |ListAt(s, P)|;
    forall k, i, x | Holds(s', k, i, x)
      ensures (k == P && i == n) || Holds(s, k, i, x)
    {
    }
    forall k, i | Holds(s', k, i, id)
      ensures k == P && i == n
    {
    }
  }

  /** Dequeue keeps the invariant: the head moves, nothing is copied. */
  lemma DequeueKeepsInv(s: Store, q: string, w: string)
    requires Inv(s)
    ensures Inv(Dequeue(s, q, w).store)
  {
    var s' := Dequeue(s, q, w).store;
    var P, W := PendingOf(q), ProcessingOf(q, w);
    if |ListAt(s, P)| > 0 {
      assert HeadMoved(s, s', P, W);
      HeadMovedKeepsInv(s, s', P, W);
    }
  }

  /** The lists after a non-empty Dequeue in terms of the lists before it:
      the head of `P` is now the last entry of `W`. */
  ghost predicate HeadMoved(s: Store, s': Store, P: Slot, W: Slot) {
    && P != W
    && |ListAt(s, P)| > 0
    && ListAt(s', P) == ListAt(s, P)[1..]
    && ListAt(s', W) == ListAt(s, W) + [ListAt(s, P)[0]]
    && forall k :: k != P && k != W ==> ListAt(s', k) == ListAt(s, k)
  }

  /** Where position `i` of list `k` was before the head of `P` moved to the
      end of `W`. */
  function DequeueOrigin(s: Store, P: Slot, W: Slot, k: Slot, i: int): (Slot, int) {
    if k == P then (k, i + 1)
    else if k == W && i == |ListAt(s, W)| then (P, 0)
    else (k, i)
  }

  lemma DequeueOriginValid(s: Store, s': Store, P: Slot, W: Slot, k: Slot, i: int)
    requires HeadMoved(s, s', P, W)
    requires 0 <= i < |ListAt(s', k)|
    ensures var o := DequeueOrigin(s, P, W, k, i);
      0 <= o.1 < |ListAt(s, o.0)| && ListAt(s', k)[i] == ListAt(s, o.0)[o.1]
  {
  }

  lemma DequeueOriginInjective(s: Store, s': Store, P: Slot, W: Slot, k1: Slot, i1: int, k2: Slot, i2: int)
    requires HeadMoved(s, s', P, W)
    requires 0 <= i1 < |ListAt(s', k1)| && 0 <= i2 < |ListAt(s', k2)|
    requires DequeueOrigin(s, P, W, k1, i1) == DequeueOrigin(s, P, W, k2, i2)
    ensures k1 == k2 && i1 == i2
  {
  }

  /** Moving one entry from one list to another keeps the invariant. */
  lemma HeadMovedKeepsInv(s: Store, s': Store, P: Slot, W: Slot)
    requires Inv(s)
    requires HeadMoved(s, s', P, W)
    ensures Inv(s')
  {
    forall k1, i1, k2, i2, x | Holds(s', k1, i1, x) && Holds(s', k2, i2, x)
      ensures k1 == k2 && i1 == i2
    {
      DequeueOriginValid(s, s', P, W, k1, i1);
      DequeueOriginValid(s, s', P, W, k2, i2);
      var o1 := DequeueOrigin(s, P, W, k1, i1);
      var o2 := DequeueOrigin(s, P, W, k2, i2);
      assert Holds(s, o1.0, o1.1, x) && Holds(s, o2.0, o2.1, x);
      DequeueOriginInjective(s, s', P, W, k1, i1, k2, i2);
    }
    forall k, i | 0 <= i < |ListAt(s', k)|
      ensures ListAt(s', k)[i].Stored? && ListAt(s', k)[i].task.status == Pending
    {
      DequeueOriginValid(s, s', P, W, k, i);
    }
  }

  /** Where position `i` of list `k` was before the entry at index `m` of the
      processing list `W` was removed and, when `requeue` holds, pushed onto
      the head of the pending list `P`. */
  function ResolveOrigin(P: Slot, W: Slot, m: int, requeue: bool, k: Slot, i: int): (Slot, int) {
    if k == W then (if i >= m then (W, i + 1) else (W, i))
    else if k == P && requeue then (if i == 0 then (W, m) else (P, i - 1))
    else (k, i)
  }

  /** The lists after the entry at index `m` of `W` is removed and, when
      `requeue` holds, pushed onto the head of `P`. */
  ghost predicate Resolved(s: Store, s': Store, P: Slot, W: Slot, m: int, requeue: bool) {
    && P != W
    && 0 <= m < |ListAt(s, W)|
    && ListAt(s', W) == ListAt(s, W)[..m] + ListAt(s, W)[m + 1..]
    && ListAt(s', P) == (if requeue then [ListAt(s, W)[m]] else []) + ListAt(s, P)
    && forall k :: k != W && k != P ==> ListAt(s', k) == ListAt(s, k)
  }

  lemma ResolveOriginValid(s: Store, s': Store, P: Slot, W: Slot, m: int, requeue: bool, k: Slot, i: int)
    requires Resolved(s, s', P, W, m, requeue)
    requires 0 <= i < |ListAt(s', k)|
    ensures var o := ResolveOrigin(P, W, m, requeue, k, i);
      0 <= o.1 < |ListAt(s, o.0)| && ListAt(s', k)[i] == ListAt(s, o.0)[o.1]
  {
  }

  lemma ResolveOriginInjective(s: Store, s': Store, P: Slot, W: Slot, m: int, requeue: bool,
                               k1: Slot, i1: int, k2: Slot, i2: int)
    requires Resolved(s, s', P, W, m, requeue)
    requires 0 <= i1 < |ListAt(s', k1)| && 0 <= i2 < |ListAt(s', k2)|
    requires ResolveOrigin(P, W, m, requeue, k1, i1) == ResolveOrigin(P, W, m, requeue, k2, i2)
    ensures k1 == k2 && i1 == i2
  {
  }

  /** The store after removing the matched entry, and optionally requeueing it,
      is the old store with one entry moved or dropped: the invariant holds. */
  lemma ResolveKeepsInv(s: Store, s': Store, q: string, w: string, m: int, id: string, requeue: bool)
    requires Inv(s)
    requires Holds(s, ProcessingOf(q, w), m, id)
    requires ListAt(s', ProcessingOf(q, w)) == ListAt(s, ProcessingOf(q, w))[..m] + ListAt(s, ProcessingOf(q, w))[m + 1..]
    requires ListAt(s', PendingOf(q)) == (if requeue then [ListAt(s, ProcessingOf(q, w))[m]] else []) + ListAt(s, PendingOf(q))
    requires forall k :: k != ProcessingOf(q, w) && k != PendingOf(q) ==> ListAt(s', k) == ListAt(s, k)
    ensures Inv(s')
  {
    var P, W := PendingOf(q), ProcessingOf(q, w);
    assert Resolved(s, s', P, W, m, requeue);
    forall k1, i1, k2, i2, x | Holds(s', k1, i1, x) && Holds(s', k2, i2, x)
      ensures k1 == k2 && i1 == i2
    {
      ResolveOriginValid(s, s', P, W, m, requeue, k1, i1);
      ResolveOriginValid(s, s', P, W, m, requeue, k2, i2);
      var o1 := ResolveOrigin(P, W, m, requeue, k1, i1);
      var o2 := ResolveOrigin(P, W, m, requeue, k2, i2);
      assert Holds(s, o1.0, o1.1, x) && Holds(s, o2.0, o2.1, x);
      ResolveOriginInjective(s, s', P, W, m, requeue, k1, i1, k2, i2);
    }
    forall k, i | 0 <= i < |ListAt(s', k)|
      ensures ListAt(s', k)[i].Stored? && ListAt(s', k)[i].task.status == Pending
    {
      ResolveOriginValid(s, s', P, W, m, requeue, k, i);
    }
  }

  /** A successful Acknowledge removes exactly the matched entry, keeps the
      invariant, and afterwards the Id is nowhere in the store. */
  lemma AcknowledgeKeepsInv(s: Store, q: string, taskId: string, w: string)
    requires Inv(s)
    ensures Inv(Acknowledge(s, q, taskId, w).store)
    ensures Acknowledge(s, q, taskId, w).result ==>
      var l := ListAt(s, ProcessingOf(q, w));
      var m := FindById(l, taskId).value;
      && ListAt(Acknowledge(s, q, taskId, w).store, ProcessingOf(q, w)) == l[..m] + l[m + 1..]
      && ListAt(Acknowledge(s, q, taskId, w).store, PendingOf(q)) == ListAt(s, PendingOf(q))
      && Absent(Acknowledge(s, q, taskId, w).store, taskId)
  {
    var r := Acknowledge(s, q, taskId, w);
    var l := ListAt(s, ProcessingOf(q, w));
    if r.result {
      var m := FindById(l, taskId).value;
      assert Holds(s, ProcessingOf(q, w), m, taskId);
      RemoveMatchedIsRemoveOne(s, ProcessingOf(q, w), m, taskId);
      ResolveKeepsInv(s, r.store, q, w, m, taskId, false);
      AbsentAfterResolve(s, r.store, q, w, m, taskId, false);
    }
  }

  /** A successful Reject removes exactly the matched entry and, when
      `requeue` holds, puts the identical value at the head of the pending
      list; the invariant holds afterwards. */
  lemma RejectKeepsInv(s: Store, q: string, taskId: string, w: string, requeue: bool)
    requires Inv(s)
    ensures Inv(Reject(s, q, taskId, w, requeue).store)
    ensures Reject(s, q, taskId, w, requeue).result ==>
      var l := ListAt(s, ProcessingOf(q, w));
      var m := FindById(l, taskId).value;
      ListAt(Reject(s, q, taskId, w, requeue).store, ProcessingOf(q, w)) == l[..m] + l[m + 1..]
  {
    var r := Reject(s, q, taskId, w, requeue);
    var l := ListAt(s, ProcessingOf(q, w));
    if r.result {
      var m := FindById(l, taskId).value;
      assert Holds(s, ProcessingOf(q, w), m, taskId);
      RemoveMatchedIsRemoveOne(s, ProcessingOf(q, w), m, taskId);
      ResolveKeepsInv(s, r.store, q, w, m, taskId, requeue);
    }
  }

  /** After the matched entry is removed (and not requeued) its Id is gone:
      it was the only position holding that Id. */
  lemma AbsentAfterResolve(s: Store, s': Store, q: string, w: string, m: int, id: string, requeue: bool)
    requires Inv(s)
    requires Holds(s, ProcessingOf(q, w), m, id)
    requires ListAt(s', ProcessingOf(q, w)) == ListAt(s, ProcessingOf(q, w))[..m] + ListAt(s, ProcessingOf(q, w))[m + 1..]
    requires ListAt(s', PendingOf(q)) == (if requeue then [ListAt(s, ProcessingOf(q, w))[m]] else []) + ListAt(s, PendingOf(q))
    requires forall k :: k != ProcessingOf(q, w) && k != PendingOf(q) ==> ListAt(s', k) == ListAt(s, k)
    ensures forall k, i :: Holds(s', k, i, id) ==> requeue && k == PendingOf(q) && i == 0
  {
    var P, W := PendingOf(q), ProcessingOf(q, w);
    assert Resolved(s, s', P, W, m, requeue);
    forall k, i | Holds(s', k, i, id)
      ensures requeue && k == P && i == 0
    {
      ResolveOriginValid(s, s', P, W, m, requeue, k, i);
      var o := ResolveOrigin(P, W, m, requeue, k, i);
      assert Holds(s, o.0, o.1, id);
    }
  }

  /** A second Acknowledge of the same Id by the same worker finds nothing. */
  lemma AcknowledgeOnce(s: Store, q: string, taskId: string, w: string)
    requires Inv(s)
    requires Acknowledge(s, q, taskId, w).result
    ensures !Acknowledge(Acknowledge(s, q, taskId, w).store, q, taskId, w).result
    ensures !Reject(Acknowledge(s, q, taskId, w).store, q, taskId, w, true).result
    ensures !Reject(Acknowledge(s, q, taskId, w).store, q, taskId, w, false).result
  {
    AcknowledgeKeepsInv(s, q, taskId, w);
    var s' := Acknowledge(s, q, taskId, w).store;
    forall i | 0 <= i < |ListAt(s', ProcessingOf(q, w))|
      ensures !Matches(ListAt(s', ProcessingOf(q, w))[i], taskId)
    {
      assert !Holds(s', ProcessingOf(q, w), i, taskId);
    }
  }

  /** Reject resolves a claim once: afterwards the same worker can neither
      acknowledge nor reject that Id again; a discarding Reject leaves the Id
      nowhere, a requeueing one leaves it only at the head of the pending list. */
  lemma RejectOnce(s: Store, q: string, taskId: string, w: string, requeue: bool)
    requires Inv(s)
    requires Reject(s, q, taskId, w, requeue).result
    ensures !Acknowledge(Reject(s, q, taskId, w, requeue).store, q, taskId, w).result
    ensures !Reject(Reject(s, q, taskId, w, requeue).store, q, taskId, w, requeue).result
    ensures !requeue ==> Absent(Reject(s, q, taskId, w, requeue).store, taskId)
    ensures requeue ==> forall k, i :: Holds(Reject(s, q, taskId, w, requeue).store, k, i, taskId) ==> k == PendingOf(q) && i == 0
  {
    RejectKeepsInv(s, q, taskId, w, requeue);
    var s' := Reject(s, q, taskId, w, requeue).store;
    var l := ListAt(s, ProcessingOf(q, w));
    var m := FindById(l, taskId).value;
    assert Holds(s, ProcessingOf(q, w), m, taskId);
    AbsentAfterResolve(s, s', q, w, m, taskId, requeue);
    forall i | 0 <= i < |ListAt(s', ProcessingOf(q, w))|
      ensures !Matches(ListAt(s', ProcessingOf(q, w))[i], taskId)
    {
      assert !Holds(s', ProcessingOf(q, w), i, taskId);
    }
  }

  /** A requeued task is the next one claimed from its queue, by any worker. */
  lemma RequeuedIsNext(s: Store, q: string, taskId: string, w: string, other: string)
    requires Reject(s, q, taskId, w, true).result
    ensures var l := ListAt(s, ProcessingOf(q, w));
      var t := l[FindById(l, taskId).value].task;
      Dequeue(Reject(s, q, taskId, w, true).store, q, other).result == Some(t)
  {
  }
}

=== FILE: lists.dfy ===
/** Generic sequence operations that stand for Redis list commands. */
module Lists {

  /** LREM key 0 value: removes every occurrence of `x` and keeps the order of
      what remains. */
  function RemoveAll<T(==)>(l: seq<T>, x: T): (r: seq<T>)
    ensures x !in r
    ensures multiset(r) == multiset(l)[x := 0]
    ensures |r| <= |l|
  {
    if |l| == 0 then []
    else
      assert l == [l[0]] + l[1..];
      if l[0] == x then RemoveAll(l[1..], x) else [l[0]] + RemoveAll(l[1..], x)
  }

  /** LREM works element by element: on a concatenation it removes from each
      part separately, so what remains keeps its order. */
  lemma {:induction false} RemoveAllAppend<T>(a: seq<T>, b: seq<T>, x: T)
    ensures RemoveAll(a + b, x) == RemoveAll(a, x) + RemoveAll(b, x)
  {
    if |a| > 0 {
      assert (a + b)[1..] == a[1..] + b;
      RemoveAllAppend(a[1..], b, x);
    } else {
      assert a + b == b;
    }
  }

  /** A one-element list loses its element exactly when it is the value. */
  lemma RemoveAllOne<T>(y: T, x: T)
    ensures y == x ==> RemoveAll([y], x) == []
    ensures y != x ==> RemoveAll([y], x) == [y]
  {
  }

  /** Removing a value the list does not hold changes nothing. */
  lemma {:induction false} RemoveAllAbsent<T>(l: seq<T>, x: T)
    requires x !in l
    ensures RemoveAll(l, x) == l
  {
    if |l| > 0 {
      assert x !in l[1..];
      RemoveAllAbsent(l[1..], x);
    }
  }

  /** With no duplicates of the removed value, "remove every copy" is "remove
      the one at its index". */
  lemma {:induction false} RemoveAllSingle<T>(l: seq<T>, k: int)
    requires 0 <= k < |l|
    requires forall i :: 0 <= i < |l| && i != k ==> l[i] != l[k]
    ensures RemoveAll(l, l[k]) == l[..k] + l[k + 1..]
  {
    var x := l[k];
    if k == 0 {
      assert x !in l[1..];
      RemoveAllAbsent(l[1..], x);
    } else {
      var t := l[1..];
      UniqueInTail(l, k);
      RemoveAllSingle(t, k - 1);
      assert RemoveAll(l, x) == [l[0]] + (t[..k - 1] + t[k..]);
      assert [l[0]] + (t[..k - 1] + t[k..]) == ([l[0]] + t[..k - 1]) + t[k..];
      assert l[..k] == [l[0]] + t[..k - 1];
      assert l[k + 1..] == t[k..];
    }
  }

  /** The uniqueness of the value at `k` carries over to the tail. */
  lemma UniqueInTail<T>(l: seq<T>, k: int)
    requires 0 < k < |l|
    requires forall i :: 0 <= i < |l| && i != k ==> l[i] != l[k]
    ensures l[0] != l[k]
    ensures l[1..][k - 1] == l[k]
    ensures forall i :: 0 <= i < |l| - 1 && i != k - 1 ==> l[1..][i] != l[1..][k - 1]
  {
    forall i | 0 <= i < |l| - 1 && i != k - 1
      ensures l[1..][i] != l[1..][k - 1]
    {
      assert l[1..][i] == l[i + 1];
    }
  }
}

=== FILE: polling.dfy ===
/** TaskPollingService: one poll cycle as a decision over the outcomes of its
    remote calls, and the background loop that repeats it. The HTTP client
    and the dispatcher are abstracted to what each call returned or threw. */
module Polling {
  import opened Common
  import opened TaskModel

  /** PollAsync: 204 (no task), a task, or an exception. */
  datatype PollResult = NoTask | Received(task: TaskCommand) | PollFailed

  /** The outcome of every call a cycle may make. `reject` is the reject after
      a false dispatch; `retryReject` is the one in the catch block. The bool an
      ack or reject returns is the HTTP success flag, which the cycle ignores. */
  datatype CycleInputs = CycleInputs(
    poll: PollResult,
    dispatch: Outcome,
    ack: Outcome,
    reject: Outcome,
    retryReject: Outcome)

  /** A call the cycle issues after the poll, in order. */
  datatype IssuedCall = RunHandler(task: TaskCommand) | SendAck(taskId: string) | SendReject(taskId: string, requeue: bool)

  /** The calls one cycle issued, and whether an exception escaped it (to be
      caught and logged by the loop). */
  datatype CycleReport = CycleReport(calls: seq<IssuedCall>, escaped: bool)

  /** PollAndProcessAsync. */
  function PollAndProcess(o: CycleInputs): (r: CycleReport)
    ensures o.poll.NoTask? ==> r == CycleReport([], false)
    ensures o.poll.PollFailed? ==> r == CycleReport([], true)
    ensures o.poll.Received? ==>
      var t := o.poll.task;
      && 2 <= |r.calls| <= 3
      && r.calls[0] == RunHandler(t)
      && (forall i :: 1 <= i < |r.calls| ==> r.calls[i] == SendAck(t.id) || r.calls[i] == SendReject(t.id, true))
      && (o.dispatch != Returned(true) ==> SendAck(t.id) !in r.calls)
      && (o.dispatch == Returned(true) && !o.ack.Threw? ==> r.calls == [RunHandler(t), SendAck(t.id)] && !r.escaped)
      && (o.dispatch == Returned(true) && o.ack.Threw? ==>
            r.calls == [RunHandler(t), SendAck(t.id), SendReject(t.id, true)])
      && (o.dispatch == Returned(false) && !o.reject.Threw? ==>
            r.calls == [RunHandler(t), SendReject(t.id, true)] && !r.escaped)
      && (o.dispatch == Returned(false) && o.reject.Threw? ==>
            r.calls == [RunHandler(t), SendReject(t.id, true), SendReject(t.id, true)])
      && (o.dispatch.Threw? ==> r.calls == [RunHandler(t), SendReject(t.id, true)])
      && (InTryThrew(o) ==> r.calls[|r.calls| - 1] == SendReject(t.id, true) && (r.escaped <==> o.retryReject.Threw?))
      && (!InTryThrew(o) ==> !r.escaped)
    ensures forall c :: c in r.calls && c.SendReject? ==> c.requeue
  {
    match o.poll
    case PollFailed => CycleReport([], true)
    case NoTask => CycleReport([], false)
    case Received(t) =>
      var tried :=
        match o.dispatch
        case Threw => [RunHandler(t)]
        case Returned(true) => [RunHandler(t), SendAck(t.id)]
        case Returned(false) => [RunHandler(t), SendReject(t.id, true)];
      if InTryThrew(o) then CycleReport(tried + [SendReject(t.id, true)], o.retryReject.Threw?)
      else CycleReport(tried, false)
  }

  /** Something inside the try block threw: the dispatch (a handler exception
      propagates through the dispatcher), the Acknowledge, or the first Reject. */
  predicate InTryThrew(o: CycleInputs) {
    match o.dispatch
    case Threw => true
    case Returned(ok) => if ok then o.ack.Threw? else o.reject.Threw?
  }

  /** The state of the cancellation token at each point the loop looks at it,
      and what one iteration's calls do. */
  datatype Tick = Tick(cancelledAtHead: bool, cycle: CycleInputs, cancelledInDelay: bool)

  datatype Event = Ran(report: CycleReport) | Waited

  /** Why ExecuteAsync returned: cancellation seen at the loop head, the
      delay cancelled (its exception ends the service), or the model's finite
      schedule of ticks ran out. */
  datatype Exit = CancelledAtHead | CancelledInDelay | OutOfTicks

  datatype Run = Run(events: seq<Event>, exit: Exit)

  /** The number of leading ticks whose cycle runs: the loop stops at the
      first tick cancelled at its head, or right after the first tick whose
      delay is cancelled. */
  function Cycles(ticks: seq<Tick>): (n: nat)
    ensures n <= |ticks|
    ensures forall i :: 0 <= i < n ==> !ticks[i].cancelledAtHead
    ensures forall i :: 0 <= i < n - 1 ==> !ticks[i].cancelledInDelay
    ensures n < |ticks| ==> ticks[n].cancelledAtHead || (n > 0 && ticks[n - 1].cancelledInDelay)
    ensures n == |ticks| && n > 0 ==> !ticks[n - 1].cancelledAtHead
    decreases |ticks|
  {
    if |ticks| == 0 || ticks[0].cancelledAtHead then 0
    else if ticks[0].cancelledInDelay then 1
    else
      var m := Cycles(ticks[1..]);
      assert forall i :: 1 <= i <= m ==> ticks[i] == ticks[1..][i - 1];
      1 + m
  }

  /** ExecuteAsync: while not cancelled, run a cycle (catching whatever
      escapes it) and then wait the polling interval. */
  function Execute(ticks: seq<Tick>): (r: Run)
    ensures |r.events| == 2 * Cycles(ticks)
    ensures forall i :: 0 <= i < Cycles(ticks) ==>
      r.events[2 * i] == Ran(PollAndProcess(ticks[i].cycle)) && r.events[2 * i + 1] == Waited
    ensures r.exit == CancelledAtHead ==> Cycles(ticks) < |ticks| && ticks[Cycles(ticks)].cancelledAtHead
    ensures r.exit == CancelledInDelay ==> Cycles(ticks) > 0 && ticks[Cycles(ticks) - 1].cancelledInDelay
    ensures Cycles(ticks) > 0 && ticks[Cycles(ticks) - 1].cancelledInDelay ==> r.exit == CancelledInDelay
    ensures r.exit == OutOfTicks ==> Cycles(ticks) == |ticks|
    decreases |ticks|
  {
    if |ticks| == 0 then Run([], OutOfTicks)
    else if ticks[0].cancelledAtHead then Run([], CancelledAtHead)
    else
      var first := [Ran(PollAndProcess(ticks[0].cycle)), Waited];
      if ticks[0].cancelledInDelay then Run(first, CancelledInDelay)
      else
        var rest := Execute(ticks[1..]);
        ShiftEvents(ticks, rest.events);
        Run(first + rest.events, rest.exit)
  }

  /** The trace of the remaining iterations, shifted behind the first one. */
  lemma {:induction false} ShiftEvents(ticks: seq<Tick>, rest: seq<Event>)
    requires |ticks| > 0 && !ticks[0].cancelledAtHead && !ticks[0].cancelledInDelay
    requires |rest| == 2 * Cycles(ticks[1..])
    requires forall i :: 0 <= i < Cycles(ticks[1..]) ==>
      rest[2 * i] == Ran(PollAndProcess(ticks[1..][i].cycle)) && rest[2 * i + 1] == Waited
    ensures var events := [Ran(PollAndProcess(ticks[0].cycle)), Waited] + rest;
      forall i :: 0 <= i < Cycles(ticks) ==>
        events[2 * i] == Ran(PollAndProcess(ticks[i].cycle)) && events[2 * i + 1] == Waited
  {
    var first := Ran(PollAndProcess(ticks[0].cycle));
    var m := Cycles(ticks[1..]);
    assert Cycles(ticks) == 1 + m;
    forall i | 1 <= i < 1 + m
      ensures ([first, Waited] + rest)[2 * i] == Ran(PollAndProcess(ticks[i].cycle))
      ensures ([first, Waited] + rest)[2 * i + 1] == Waited
    {
      ShiftEventAt(ticks, first, rest, i);
    }
  }

  /** One cycle of the remaining iterations, moved one cycle later. */
  lemma ShiftEventAt(ticks: seq<Tick>, first: Event, rest: seq<Event>, i: nat)
    requires 1 <= i < |ticks| && 2 * i <= |rest|
    requires rest[2 * (i - 1)] == Ran(PollAndProcess(ticks[1..][i - 1].cycle)) && rest[2 * (i - 1) + 1] == Waited
    ensures ([first, Waited] + rest)[2 * i] == Ran(PollAndProcess(ticks[i].cycle))
    ensures ([first, Waited] + rest)[2 * i + 1] == Waited
  {
    assert ticks[1..][i - 1] == ticks[i];
  }

  /** Same cancellation, same loop: how each cycle went (including polls or
      rejects that threw) never changes how many cycles run or why the loop
      ends. */
  predicate SameCancellation(a: seq<Tick>, b: seq<Tick>) {
    |a| == |b| && forall i :: 0 <= i < |a| ==>
      a[i].cancelledAtHead == b[i].cancelledAtHead && a[i].cancelledInDelay == b[i].cancelledInDelay
  }

  lemma {:induction false} FaultsDoNotStopLoop(a: seq<Tick>, b: seq<Tick>)
    requires SameCancellation(a, b)
    ensures Cycles(a) == Cycles(b)
    ensures Execute(a).exit == Execute(b).exit
  {
    if |a| > 0 && !a[0].cancelledAtHead && !a[0].cancelledInDelay {
      FaultsDoNotStopLoop(a[1..], b[1..]);
    }
  }
}

=== FILE: redis_keys.dfy ===
/** The Redis keys of the coordinator. As written, a key is the queue and
    worker names spliced into a colon-separated template, and since the names
    may themselves contain colons, two different lists can share one key.
    The rest of the model keys its store by `Slot`, whose constructors keep
    every list apart; `SlotKey` is a string encoding with that property. */
module RedisKeys {
  import opened Common
  import opened TaskModel
  import opened Coordinator

  const KeyPrefix := "task-queue:"

  /** GetQueueKey, as written. */
  function QueueKey(q: string): (k: string)
    ensures |k| == |KeyPrefix| + |q| + 9
    ensures k[..|KeyPrefix|] == KeyPrefix
    ensures k[|KeyPrefix|..|KeyPrefix| + |q|] == q
    ensures k[|KeyPrefix| + |q|..] == ":commands"
  {
    KeyPrefix + q + ":commands"
  }

  /** GetProcessingKey, as written. */
  function ProcessingKey(q: string, w: string): (k: string)
    ensures |k| == |KeyPrefix| + |q| + 12 + |w|
    ensures k[..|KeyPrefix|] == KeyPrefix
    ensures k[|KeyPrefix|..|KeyPrefix| + |q|] == q
    ensures k[|KeyPrefix| + |q|..|KeyPrefix| + |q| + 12] == ":processing:"
    ensures k[|KeyPrefix| + |q| + 12..] == w
  {
    KeyPrefix + q + ":processing:" + w
  }

  /** The Redis keyspace as the service addresses it: lists by key string. */
  type RawStore = map<string, seq<Entry>>

  function RawList(s: RawStore, key: string): seq<Entry> {
    if key in s then s[key] else []
  }

  /** EnqueueAsync as written: RPUSH onto the key built from the queue name. */
  function RawEnqueue(s: RawStore, q: string, t: TaskCommand): (r: RawStore)
    ensures RawList(r, QueueKey(q)) == RawList(s, QueueKey(q)) + [Stored(t)]
    ensures forall key :: key != QueueKey(q) ==> RawList(r, key) == RawList(s, key)
  {
    s[QueueKey(q) := RawList(s, QueueKey(q)) + [Stored(t)]]
  }

  /** DequeueAsync as written: LMOVE between the two keys built from the
      names; returns the moved value, if any. */
  function RawDequeue(s: RawStore, q: string, w: string): (r: (RawStore, Option<Entry>))
    ensures |RawList(s, QueueKey(q))| == 0 ==> r == (s, None)
    ensures |RawList(s, QueueKey(q))| > 0 && QueueKey(q) != ProcessingKey(q, w) ==>
      && r.1 == Some(RawList(s, QueueKey(q))[0])
      && RawList(r.0, QueueKey(q)) == RawList(s, QueueKey(q))[1..]
      && RawList(r.0, ProcessingKey(q, w)) == RawList(s, ProcessingKey(q, w)) + [RawList(s, QueueKey(q))[0]]
  {
    var pending := RawList(s, QueueKey(q));
    if |pending| == 0 then (s, None)
    else
      var moved := s[QueueKey(q) := pending[1..]];
      (moved[ProcessingKey(q, w) := RawList(moved, ProcessingKey(q, w)) + [pending[0]]], Some(pending[0]))
  }

  /** The pending list of queue "a:processing:b" is the in-flight list of
      worker "b:commands" on queue "a". */
  lemma QueueKeyIsProcessingKey()
    ensures QueueKey("a:processing:b") == ProcessingKey("a", "b:commands")
  {
    var q, w := "a", "b";
    assert q + ":processing:" + w == "a:processing:b";
    assert w + ":commands" == "b:commands";
    SplicedQueueCollides(q, w);
  }

  /** A queue name that carries the processing separator names the pending
      list that is also a worker's in-flight list, for any names. */
  lemma SplicedQueueCollides(q: string, w: string)
    ensures QueueKey(q + ":processing:" + w) == ProcessingKey(q, w + ":commands")
  {
  }

  /** Two workers on two different queues share one in-flight list. */
  lemma ProcessingKeysCollide()
    ensures ProcessingKey("a", "b:processing:c") == ProcessingKey("a:processing:b", "c")
  {
    var q, b, c := "a", "b", "c";
    assert b + ":processing:" + c == "b:processing:c";
    assert q + ":processing:" + b == "a:processing:b";
    SplicedWorkerCollides(q, b, c);
  }

  /** The separator spliced into a worker name can be read as part of the
      queue name instead, for any names. */
  lemma SplicedWorkerCollides(q: string, b: string, c: string)
    ensures ProcessingKey(q, b + ":processing:" + c) == ProcessingKey(q + ":processing:" + b, c)
  {
  }

  /** A task submitted to queue "a:processing:b" shows up as in flight for
      worker "b:commands" of queue "a", which never claimed it and can
      acknowledge it away. */
  lemma {:induction false} EnqueueLandsInFlight(t: TaskCommand)
    ensures RawList(RawEnqueue(map[], "a:processing:b", t), ProcessingKey("a", "b:commands")) == [Stored(t)]
  {
    QueueKeyIsProcessingKey();
  }

  /** Conversely, polling queue "a:processing:b" takes the oldest in-flight
      task of worker "b:commands" on queue "a" and hands it to another
      worker. */
  lemma {:induction false} PollStealsInFlight(s: RawStore, t: TaskCommand, other: string)
    requires RawList(s, ProcessingKey("a", "b:commands")) == [Stored(t)]
    ensures RawDequeue(s, "a:processing:b", other).1 == Some(Stored(t))
  {
    QueueKeyIsProcessingKey();
    var k := QueueKey("a:processing:b");
    var k' := ProcessingKey("a:processing:b", other);
    var i := |KeyPrefix + "a:processing:b:"|;
    assert k'[i] == 'p' && k[i] == 'c';
  }

  /** The character-level escape: a backslash is doubled and a colon becomes
      a backslash and a semicolon, so no escaped name contains a colon. */
  function EscapeChar(c: char): (r: string)
    ensures ':' !in r
    ensures c != '\\' && c != ':' ==> r == [c]
    ensures c == '\\' || c == ':' ==> |r| == 2 && r[0] == '\\'
  {
    if c == '\\' then "\\\\" else if c == ':' then "\\;" else [c]
  }

  function Escape(s: string): (r: string)
    ensures ':' !in r
  {
    if |s| == 0 then [] else EscapeChar(s[0]) + Escape(s[1..])
  }

  function Unescape(s: string): string {
    if |s| == 0 then []
    else if |s| >= 2 && s[0] == '\\' then [if s[1] == '\\' then '\\' else ':'] + Unescape(s[2..])
    else [s[0]] + Unescape(s[1..])
  }

  /** Unescaping undoes escaping, so escaping is injective. */
  lemma {:induction false} UnescapeEscape(s: string)
    ensures Unescape(Escape(s)) == s
  {
    if |s| > 0 {
      var e := EscapeChar(s[0]);
      var rest := Escape(s[1..]);
      assert Escape(s) == e + rest;
      if s[0] == '\\' || s[0] == ':' {
        assert (e + rest)[2..] == rest;
      } else {
        assert (e + rest)[1..] == rest;
      }
      UnescapeEscape(s[1..]);
    }
  }

  /** Names without colons or backslashes escape to themselves. */
  lemma {:induction false} EscapePlain(s: string)
    requires ':' !in s && '\\' !in s
    ensures Escape(s) == s
  {
    if |s| > 0 {
      assert s[0] in s;
      assert forall c :: c in s[1..] ==> c in s;
      EscapePlain(s[1..]);
    }
  }

  /** The corrected key of a list: the names are escaped before they are
      spliced into the template. */
  function SlotKey(k: Slot): string {
    KeyPrefix + (Escape(k.queue) + ":" + SlotKeyTail(k))
  }

  /** What follows the queue name: which kind of list, and whose. */
  function SlotKeyTail(k: Slot): string {
    match k
    case PendingOf(_) => "commands"
    case ProcessingOf(_, w) => "processing:" + Escape(w)
  }

  /** In a colon-free field followed by a colon, that colon is the first one. */
  lemma {:induction false} FirstColon(x: string, r: string)
    requires ':' !in x
    ensures (x + ":" + r)[|x|] == ':'
    ensures forall i :: 0 <= i < |x| ==> (x + ":" + r)[i] != ':'
  {
    forall i | 0 <= i < |x|
      ensures (x + ":" + r)[i] != ':'
    {
      assert (x + ":" + r)[i] == x[i];
      assert x[i] in x;
    }
  }

  /** A colon-free field followed by a colon is read back unambiguously. */
  lemma {:induction false} FirstField(x: string, r1: string, y: string, r2: string)
    requires ':' !in x && ':' !in y
    requires x + ":" + r1 == y + ":" + r2
    ensures x == y && r1 == r2
  {
    var a := x + ":" + r1;
    FirstColon(x, r1);
    FirstColon(y, r2);
    var m := if |x| <= |y| then |x| else |y|;
    assert a[m] == ':';
    assert x == a[..|x|] == y;
    assert r1 == a[|x| + 1..] == r2;
  }

  /** The tail tells the kind of list and, for an in-flight list, the worker. */
  lemma {:induction false} SlotKeyTailInjective(a: Slot, b: Slot)
    requires SlotKeyTail(a) == SlotKeyTail(b)
    ensures a.PendingOf? == b.PendingOf?
    ensures a.ProcessingOf? && b.ProcessingOf? ==> a.worker == b.worker
  {
    var ta, tb := SlotKeyTail(a), SlotKeyTail(b);
    assert ta[0] == if a.PendingOf? then 'c' else 'p';
    assert tb[0] == if b.PendingOf? then 'c' else 'p';
    var n := |"processing:"|;
    assert a.ProcessingOf? ==> Escape(a.worker) == ta[n..];
    assert b.ProcessingOf? ==> Escape(b.worker) == tb[n..];
    if a.ProcessingOf? && b.ProcessingOf? {
      UnescapeEscape(a.worker);
      UnescapeEscape(b.worker);
    }
  }

  /** Different lists have different keys: the intended property the
      as-written keys lack. */
  lemma {:induction false} SlotKeyInjective(a: Slot, b: Slot)
    requires SlotKey(a) == SlotKey(b)
    ensures a == b
  {
    var ka := SlotKey(a);
    assert ka[|KeyPrefix|..] == Escape(a.queue) + ":" + SlotKeyTail(a);
    assert SlotKey(b)[|KeyPrefix|..] == Escape(b.queue) + ":" + SlotKeyTail(b);
    FirstField(Escape(a.queue), SlotKeyTail(a), Escape(b.queue), SlotKeyTail(b));
    UnescapeEscape(a.queue);
    UnescapeEscape(b.queue);
    SlotKeyTailInjective(a, b);
  }

  /** For names without colons or backslashes the corrected keys are the keys
      the service writes today, so existing data keeps its place. */
  lemma {:induction false} SlotKeyCompatible(q: string, w: string)
    requires ':' !in q && '\\' !in q && ':' !in w && '\\' !in w
    ensures SlotKey(PendingOf(q)) == QueueKey(q)
    ensures SlotKey(ProcessingOf(q, w)) == ProcessingKey(q, w)
  {
    EscapePlain(q);
    EscapePlain(w);
    PendingKeyShape(q);
    ProcessingKeyShape(q, w);
  }

  lemma PendingKeyShape(q: string)
    ensures KeyPrefix + (q + ":" + "commands") == QueueKey(q)
  {
    assert ":" + "commands" == ":commands";
  }

  lemma ProcessingKeyShape(q: string, w: string)
    ensures KeyPrefix + (q + ":" + ("processing:" + w)) == ProcessingKey(q, w)
  {
    assert ":" + "processing:" == ":processing:";
  }

  /** Distinct lists, distinct corrected keys, in both directions. */
  lemma SlotKeyDistinct(a: Slot, b: Slot)
    ensures SlotKey(a) == SlotKey(b) <==> a == b
  {
    if SlotKey(a) == SlotKey(b) {
      SlotKeyInjective(a, b);
    }
  }

  /** A queue or worker name the service's keys keep apart: no colon, and no
      backslash, so its corrected key is the key written today. */
  predicate PlainName(n: string) {
    ':' !in n && '\\' !in n
  }

  /** The keyspace holds each list of the store under that list's key. */
  ghost predicate Mirrors(raw: RawStore, s: Store) {
    forall k :: RawList(raw, SlotKey(k)) == ListAt(s, k)
  }

  /** Writing one list under its key mirrors replacing that list. */
  lemma MirrorsPut(raw: RawStore, s: Store, k: Slot, l: seq<Entry>)
    requires Mirrors(raw, s)
    ensures Mirrors(raw[SlotKey(k) := l], Put(s, k, l))
  {
    forall k' | true
      ensures RawList(raw[SlotKey(k) := l], SlotKey(k')) == ListAt(Put(s, k, l), k')
    {
      SlotKeyDistinct(k', k);
    }
  }

  /** For plain names the service reads, under the keys it builds, exactly
      the lists of the store. */
  lemma MirrorsRead(raw: RawStore, s: Store, q: string, w: string)
    requires Mirrors(raw, s)
    requires PlainName(q) && PlainName(w)
    ensures RawList(raw, QueueKey(q)) == ListAt(s, PendingOf(q))
    ensures RawList(raw, ProcessingKey(q, w)) == ListAt(s, ProcessingOf(q, w))
    ensures QueueKey(q) != ProcessingKey(q, w)
  {
    SlotKeyCompatible(q, w);
    SlotKeyDistinct(PendingOf(q), ProcessingOf(q, w));
  }

  /** EnqueueAsync on its own keys does what `Coordinator.Enqueue` does on the
      store, for a plain queue name. */
  lemma RawEnqueueMirrors(raw: RawStore, s: Store, q: string, command: string,
                          parameters: Option<map<string, string>>, id: string, now: int)
    requires Mirrors(raw, s)
    requires PlainName(q)
    ensures var e := Enqueue(s, q, command, parameters, id, now);
      Mirrors(RawEnqueue(raw, q, e.result), e.store)
  {
    var e := Enqueue(s, q, command, parameters, id, now);
    MirrorsRead(raw, s, q, "");
    SlotKeyCompatible(q, "");
    MirrorsPut(raw, s, PendingOf(q), ListAt(s, PendingOf(q)) + [Stored(e.result)]);
  }

  /** DequeueAsync on its own keys does what `Coordinator.Dequeue` does on the
      store, for plain names: the same lists afterwards, and the moved value
      is the returned task exactly when it is readable. */
  lemma RawDequeueMirrors(raw: RawStore, s: Store, q: string, w: string)
    requires Mirrors(raw, s)
    requires PlainName(q) && PlainName(w)
    ensures var d := Dequeue(s, q, w);
      var r := RawDequeue(raw, q, w);
      && Mirrors(r.0, d.store)
      && (r.1.None? ==> d.result.None?)
      && (r.1.Some? ==> (d.result.Some? <==> r.1.value.Stored?))
      && (d.result.Some? ==> r.1 == Some(Stored(d.result.value)))
  {
    MirrorsRead(raw, s, q, w);
    SlotKeyCompatible(q, w);
    var P, W := PendingOf(q), ProcessingOf(q, w);
    var pending := ListAt(s, P);
    if |pending| > 0 {
      var raw1 := raw[QueueKey(q) := pending[1..]];
      var s1 := Put(s, P, pending[1..]);
      MirrorsPut(raw, s, P, pending[1..]);
      MirrorsPut(raw1, s1, W, ListAt(s, W) + [pending[0]]);
    }
  }
}

=== FILE: task_command.dfy ===
/** The task record of TaskQueue.Api/Models/TaskCommand.cs and the values the
    Redis lists hold. */
module TaskModel {
  import opened Common

  /** TaskCommandStatus. Only `Pending` is ever assigned: a task's progress is
      the list that holds it, never a rewritten status field. */
  datatype Status = Pending | Processing | Completed | Failed

  /** An immutable task record. `createdAt` is an abstract clock reading;
      `parameters` is `None` when the producer sent none. */
  datatype TaskCommand = TaskCommand(
    id: string,
    command: string,
    parameters: Option<map<string, string>>,
    createdAt: int,
    status: Status)

  /** The record EnqueueAsync creates from the request's command and
      parameters, with every other field left to its initialiser. The fresh
      GUID and the clock reading are supplied by the caller, since the model
      has neither a random source nor a clock. */
  function NewTask(id: string, command: string, parameters: Option<map<string, string>>, now: int): (t: TaskCommand)
    ensures t.status == Pending
    ensures t.id == id && t.command == command && t.parameters == parameters
    ensures t.createdAt == now
  {
    TaskCommand(id, command, parameters, now, Pending)
  }

  /** A value of a Redis list as the service reads it back. `Unreadable` is a
      value that is null or empty, or whose JSON deserialises to null; every
      other value is the serialisation of one record, and two values are equal
      exactly when their records are. */
  datatype Entry = Unreadable | Stored(task: TaskCommand)

  /** The scan test of Acknowledge and Reject: a readable entry whose Id is `id`. */
  predicate Matches(e: Entry, id: string) {
    e.Stored? && e.task.id == id
  }
}

=== FILE: token_auth.dfy ===
/** TokenAuthMiddleware: the bearer-token decision made before every request
    reaches the endpoints. */
module TokenAuth {
  import opened Common

  /** Pass the request on, or answer 401 with a JSON `error` message. */
  datatype Decision = Next | Unauthorized(error: string)

  const HeaderRequired := "Authorization header is required"
  const InvalidFormat := "Invalid authorization format. Use 'Bearer <token>'"
  const InvalidToken := "Invalid token"

  /** The scheme prefix, matched ignoring case; its length is where the token
      starts. */
  const BearerPrefix := "Bearer "

  const OpenApiSegment := "/openapi"

  /** `PathString.StartsWithSegments`: the path begins with `segment`,
      ignoring case, and either ends there or continues with '/'. */
  function StartsWithSegment(path: string, segment: string): (b: bool)
    ensures b ==> |segment| <= |path| && EqualsIgnoreCase(path[..|segment|], segment)
    ensures b && |segment| < |path| ==> path[|segment|] == '/'
    ensures EqualsIgnoreCase(path, segment) ==> b
    ensures StartsWithIgnoreCase(path, segment) && |segment| < |path| && path[|segment|] == '/' ==> b
  {
    StartsWithIgnoreCase(path, segment) && (|path| == |segment| || path[|segment|] == '/')
  }

  /** The token carried by a header that starts with the bearer prefix: the
      rest of the header with surrounding white space removed. */
  function BearerToken(header: string): (t: string)
    requires |BearerPrefix| <= |header|
    ensures IsTrimmed(t)
    ensures exists i :: PaddedAt(header[|BearerPrefix|..], t, i)
  {
    Trim(header[|BearerPrefix|..])
  }

  /** InvokeAsync, given the configured ApiToken, the request path and the
      values of the Authorization header. The first failing check decides
      the message. */
  function Authenticate(apiToken: Option<string>, path: string, authorization: seq<string>): (r: Decision)
    ensures IsNullOrEmpty(apiToken) ==> r == Next
    ensures StartsWithSegment(path, OpenApiSegment) ==> r == Next
    ensures r.Unauthorized? ==> r.error in {HeaderRequired, InvalidFormat, InvalidToken}
    ensures r == Unauthorized(HeaderRequired) <==>
      !IsNullOrEmpty(apiToken) && !StartsWithSegment(path, OpenApiSegment) && IsNullOrEmpty(FirstOrDefault(authorization))
    ensures r == Unauthorized(InvalidFormat) <==>
      && !IsNullOrEmpty(apiToken) && !StartsWithSegment(path, OpenApiSegment)
      && !IsNullOrEmpty(FirstOrDefault(authorization))
      && !StartsWithIgnoreCase(authorization[0], BearerPrefix)
    ensures r.Next? && !IsNullOrEmpty(apiToken) && !StartsWithSegment(path, OpenApiSegment) ==>
      && |authorization| > 0
      && StartsWithIgnoreCase(authorization[0], BearerPrefix)
      && BearerToken(authorization[0]) == apiToken.value
    ensures
      && !IsNullOrEmpty(apiToken)
      && |authorization| > 0
      && StartsWithIgnoreCase(authorization[0], BearerPrefix)
      && BearerToken(authorization[0]) == apiToken.value
      ==> r == Next
  {
    if IsNullOrEmpty(apiToken) then Next
    else if StartsWithSegment(path, OpenApiSegment) then Next
    else
      var header := FirstOrDefault(authorization);
      if IsNullOrEmpty(header) then Unauthorized(HeaderRequired)
      else if !StartsWithIgnoreCase(header.value, BearerPrefix) then Unauthorized(InvalidFormat)
      else if BearerToken(header.value) != apiToken.value then Unauthorized(InvalidToken)
      else Next
  }

  /** With no token configured every request passes. */
  lemma NoTokenAllowsAll(path: string, authorization: seq<string>)
    ensures Authenticate(None, path, authorization) == Next
    ensures Authenticate(Some(""), path, authorization) == Next
  {
  }

  /** The OpenAPI document and everything below it is served without a token,
      whatever the letter case of the path. */
  lemma OpenApiBypass(apiToken: Option<string>, rest: string, authorization: seq<string>)
    requires |rest| == 0 || rest[0] == '/'
    ensures Authenticate(apiToken, "/OPENAPI" + rest, authorization) == Next
    ensures Authenticate(apiToken, OpenApiSegment + rest, authorization) == Next
  {
    var upper := "/OPENAPI" + rest;
    assert upper[..|OpenApiSegment|] == "/OPENAPI";
    assert (OpenApiSegment + rest)[..|OpenApiSegment|] == OpenApiSegment;
    FoldOpenApi();
  }

  lemma FoldOpenApi()
    ensures Fold("/OPENAPI") == OpenApiSegment && Fold(OpenApiSegment) == OpenApiSegment
  {
    FoldOpenApiUpper("/OPENAPI");
    FoldOpenApiLower(OpenApiSegment);
  }

  lemma FoldOpenApiUpper(u: string)
    requires u == "/OPENAPI"
    ensures Fold(u) == OpenApiSegment
  {
    FoldAs(u, OpenApiSegment);
  }

  lemma FoldOpenApiLower(a: string)
    requires a == OpenApiSegment
    ensures Fold(a) == a
  {
    FoldAs(a, a);
  }

  /** The header the listener sends, `Bearer {token}`, and any variant with a
      differently cased scheme or white space around the token, is accepted
      exactly when the configured token is the same non-empty text with no
      white space at either end. */
  lemma {:induction false} PaddedHeaderAccepted(apiToken: string, scheme: string, pre: string, token: string, post: string, path: string)
    requires EqualsIgnoreCase(scheme, BearerPrefix)
    requires AllWhiteSpace(pre) && AllWhiteSpace(post)
    requires |token| > 0 && IsTrimmed(token)
    requires !StartsWithSegment(path, OpenApiSegment)
    requires |apiToken| > 0
    ensures Authenticate(Some(apiToken), path, [scheme + pre + token + post]) == Next <==> apiToken == token
  {
    PaddedBearer(scheme, pre, token, post);
  }

  /** The header is a bearer header and carries exactly `token`. */
  lemma PaddedBearer(scheme: string, pre: string, token: string, post: string)
    requires EqualsIgnoreCase(scheme, BearerPrefix)
    requires AllWhiteSpace(pre) && AllWhiteSpace(post)
    requires |token| > 0 && IsTrimmed(token)
    ensures StartsWithIgnoreCase(scheme + pre + token + post, BearerPrefix)
    ensures BearerToken(scheme + pre + token + post) == token
  {
    var header := scheme + pre + token + post;
    assert header[..|BearerPrefix|] == scheme;
    assert header[|BearerPrefix|..] == pre + token + post;
    TrimPadded(pre, token, post);
  }

  /** A configured token with white space at either end can never be
      presented: the middleware trims what the client sends, so every request
      that needs a token is refused. */
  lemma PaddedConfigurationLocksOut(apiToken: string, path: string, authorization: seq<string>)
    requires |apiToken| > 0 && !IsTrimmed(apiToken)
    requires !StartsWithSegment(path, OpenApiSegment)
    ensures Authenticate(Some(apiToken), path, authorization).Unauthorized?
  {
  }

  /** The listener's client: it adds `Bearer {token}` when its own token is
      non-empty and no Authorization header otherwise. With the same token on
      both sides, its requests pass exactly when that token has no white
      space at either end; with no client token they are refused. */
  function ClientAuthorization(clientToken: string): (values: seq<string>)
    ensures |clientToken| == 0 <==> values == []
  {
    if |clientToken| == 0 then [] else [BearerPrefix + clientToken]
  }

  lemma ListenerCredentials(token: string, path: string)
    requires |token| > 0
    requires !StartsWithSegment(path, OpenApiSegment)
    ensures Authenticate(Some(token), path, ClientAuthorization(token)) == Next <==> IsTrimmed(token)
    ensures Authenticate(Some(token), path, ClientAuthorization("")) == Unauthorized(HeaderRequired)
  {
    var header := BearerPrefix + token;
    assert ClientAuthorization(token) == [header];
    assert header[..|BearerPrefix|] == BearerPrefix;
    assert header[|BearerPrefix|..] == token;
    if IsTrimmed(token) {
      assert token == [] + token + [];
      TrimPadded([], token, []);
    }
  }
}

=== FILE: traces.dfy ===
/** FIFO delivery: a run of enqueues and dequeues on one queue, with no
    reject in between, delivers tasks in the order they were queued. */
module Traces {
  import opened Common
  import opened TaskModel
  import opened Coordinator

  /** One producer or worker call against queue `q`. */
  datatype QueueCall =
    | Submit(command: string, parameters: Option<map<string, string>>, id: string, now: int)
    | Claim(worker: string)

  /** The tasks the Submit calls create, in call order. */
  function Submitted(calls: seq<QueueCall>): seq<TaskCommand> {
    if |calls| == 0 then []
    else
      (match calls[0]
       case Submit(c, p, id, now) => [NewTask(id, c, p, now)]
       case Claim(_) => []) + Submitted(calls[1..])
  }

  /** The store after one call and the tasks it delivered. */
  function Perform(s: Store, q: string, c: QueueCall): (Store, seq<TaskCommand>) {
    match c
    case Submit(command, p, id, now) => (Enqueue(s, q, command, p, id, now).store, [])
    case Claim(w) =>
      var r := Dequeue(s, q, w);
      (r.store, if r.result.Some? then [r.result.value] else [])
  }

  /** Runs the calls in order on queue `q`; returns the final store and the
      tasks the Claim calls received (empty polls deliver nothing). */
  function Replay(s: Store, q: string, calls: seq<QueueCall>): (Store, seq<TaskCommand>)
    decreases |calls|
  {
    if |calls| == 0 then (s, [])
    else
      var first := Perform(s, q, calls[0]);
      var rest := Replay(first.0, q, calls[1..]);
      (rest.0, first.1 + rest.1)
  }

  /** One call: a Submit appends its task to the pending tasks, a Claim
      delivers exactly the task it takes off the head. */
  lemma PerformBalance(s: Store, q: string, c: QueueCall)
    ensures Perform(s, q, c).1 + PeekAll(Perform(s, q, c).0, q) == PeekAll(s, q) + Submitted([c])
  {
    var pending := ListAt(s, PendingOf(q));
    match c {
      case Submit(command, p, id, now) =>
        ReadableAppend(pending, [Stored(NewTask(id, command, p, now))]);
        assert Submitted([c]) == [NewTask(id, command, p, now)];
      case Claim(w) =>
        if |pending| > 0 {
          assert pending == [pending[0]] + pending[1..];
          ReadableAppend([pending[0]], pending[1..]);
        }
        assert Submitted([c]) == [];
    }
  }

  lemma Regroup<T>(a: seq<T>, x: seq<T>, y: seq<T>, b: seq<T>, c: seq<T>, d: seq<T>, e: seq<T>)
    requires a + b == d + e
    requires x + y == b + c
    ensures (a + x) + y == d + (e + c)
  {
    calc {
      (a + x) + y;
      a + (x + y);
      (a + b) + c;
      (d + e) + c;
    }
  }

  lemma PrefixOf<T>(d: seq<T>, p: seq<T>, x: seq<T>)
    requires d + p == x
    ensures |d| <= |x| && d == x[..|d|]
  {
    assert x[..|d|] == (d + p)[..|d|];
  }

  /** Nothing is lost or reordered: what was delivered followed by what is
      still pending is exactly what was pending before followed by what was
      submitted. */
  lemma {:induction false} FifoBalance(s: Store, q: string, calls: seq<QueueCall>)
    ensures Replay(s, q, calls).1 + PeekAll(Replay(s, q, calls).0, q) == PeekAll(s, q) + Submitted(calls)
    decreases |calls|
  {
    if |calls| > 0 {
      var first := Perform(s, q, calls[0]);
      var rest := Replay(first.0, q, calls[1..]);
      PerformBalance(s, q, calls[0]);
      FifoBalance(first.0, q, calls[1..]);
      SubmittedCons(calls);
      ReplayCons(s, q, calls);
      Regroup(first.1, rest.1, PeekAll(rest.0, q), PeekAll(first.0, q), Submitted(calls[1..]),
              PeekAll(s, q), Submitted([calls[0]]));
    }
  }

  lemma SubmittedCons(calls: seq<QueueCall>)
    requires |calls| > 0
    ensures Submitted(calls) == Submitted([calls[0]]) + Submitted(calls[1..])
  {
    assert [calls[0]][1..] == [];
  }

  lemma ReplayCons(s: Store, q: string, calls: seq<QueueCall>)
    requires |calls| > 0
    ensures Replay(s, q, calls).0 == Replay(Perform(s, q, calls[0]).0, q, calls[1..]).0
    ensures Replay(s, q, calls).1 == Perform(s, q, calls[0]).1 + Replay(Perform(s, q, calls[0]).0, q, calls[1..]).1
  {
  }

  /** FIFO: the tasks delivered are a prefix of the tasks that were pending
      followed by the tasks submitted, in that order. */
  lemma FifoDelivery(s: Store, q: string, calls: seq<QueueCall>)
    ensures var d := Replay(s, q, calls).1;
      |d| <= |PeekAll(s, q) + Submitted(calls)| && d == (PeekAll(s, q) + Submitted(calls))[..|d|]
  {
    FifoBalance(s, q, calls);
    PrefixOf(Replay(s, q, calls).1, PeekAll(Replay(s, q, calls).0, q), PeekAll(s, q) + Submitted(calls));
  }
}
